=== FILE: README.md ===
# copper `Dataset`: column classification and selection, in Dafny

This project models the decision logic of `copper.core.set.Dataset`. A
`Dataset` wraps a pandas DataFrame. It gives every column a role (ID, Input,
Target, Reject) and a type (Number, Category), and derives views from those
two series. The model covers:

- **Classification** (`set_frame`): the passes over the columns in source
  order.
  - An "id" name makes a column ID.
  - The first "target" name makes a column Target. Later "target" names make
    their columns Reject.
  - A missing ratio above one half makes a column Reject, overriding the name
    rules.
  - Every column still unassigned becomes Input.
  - A column is typed Number exactly when its dtype is int64 or float64.
- **Selection** (`filter` with its three return modes) and the views built on
  it: `inputs`, `target`, `numbers`, `categories`, `metadata`. Also `update`.
- **Imputation** (`fillna`): the 'mean'/'mode' loop, the explicit-`value`
  loop and the do-nothing fall-through.
- **Renaming** (`fix_names`).

The model is functional. A `Dataset` is a `Frame` plus a `seq<Role>` and a
`seq<Type>`, all aligned by position, and a flag that records whether
`self.columns` is still the NumPy array `set_frame` stores or the plain list
`fix_names` leaves behind. A `Frame` is a sequence of named
columns, each with a dtype (`Kind`) and cells, over a shared row count.
Looking up a column by name resolves to the first column with that name.
The role and type series stay aligned with the columns by position. When two
columns share a name, the source raises instead (see "## Left out").

Modules and files:

- `wrappers.dfy`: `Option` and `Result`.
- `seqs.dfy`: order-preserving index selection (`Where`). It is proved equal to
  a reference filter (`Keep`).
- `names.dfy` (module `ColumnNames`): lower-casing, the identifier and target
  name tests, and `fix_names` on one name.
- `frames.dfy`: cells, dtypes, columns, the missing ratio, name lookup and
  projection.
- `datasets.dfy`: roles, types and the classification.
- `views.dfy`: `filter` and the views.
- `imputation.dfy`: `fillna`.
- `renaming.dfy`: `fix_names` on a dataset.

What the code does in three places where a reader might expect more:

- `inputs` is `filter(role='Input')` and encodes nothing: categorical
  columns come back as they are, without dummy columns.
- `target` is the first column of `filter(role='Target')`, returned as it is;
  its levels are not turned into integers.
- `fillna` with a method other than 'mean', 'mode' or 'knn' and no `value`
  raises nothing and changes nothing.

In the explicit-`value` branch of `fillna`, the guards compare a column's role
with the type constants 'Category' and 'Number'. A role never equals either
constant. So the model fills every selected non-rejected column whose value is
a str, int or float, whatever the column's type. What pandas then does with
the value is a parameter, `fillKind`: the column's dtype afterwards, or a
refusal, which the model reports as `FillRejected`. In the 'mean'/'mode'
branch the dtype pandas infers for a column after the fill is the parameter
`refill`: pandas re-infers an object column, so one left holding only bools
becomes bool.

## Model

| member | source | states |
|---|---|---|
| `ColumnNames.IdNameSpellings` | copper/core/set.py:48-52 | a name is an identifier name exactly when it is one of "id", "iD", "Id", "ID" |
| `ColumnNames.IdAndTargetNamesDisjoint` | copper/core/set.py:48-58 | no name passes both the identifier test and the target test |
| `ColumnNames.StripIsRemove` | copper/core/set.py:366 | `''.join(s.split(c))` is `s` with every `c` deleted and the other characters kept in order |
| `ColumnNames.FixNameRemovesSymbols` | copper/core/set.py:362-366 | stripping ' ', '.', '-' one after another is deleting all three from the name, keeping the rest in order |
| `ColumnNames.FixNameProperties` | copper/core/set.py:362-366 | a fixed name holds no ' ', '.' or '-', is no longer than the original, and equals it exactly when the original held none of them |
| `ColumnNames.FixNameIdempotent` | copper/core/set.py:362-366 | fixing an already fixed name changes nothing |
| `Frames.Find` | copper/core/set.py:333 | a lookup by name finds nothing exactly when no column has the name; otherwise it finds the first column with that name |
| `Frames.NoValueIffAllMissing` | copper/core/set.py:339 | a column has no observed value (empty `value_counts`) exactly when every cell is missing |
| `Seqs.Where` | copper/core/set.py:201-202 | the comprehension selects exactly the qualifying positions, each once, in column order |
| `Seqs.PickWhere` | copper/core/set.py:201-213 | taking the columns at the selected positions equals walking the columns and keeping the qualifying ones |
| `Seqs.WhereHead` | copper/core/set.py:90 | the first entry of a selection is the first qualifying position |
| `Seqs.WhereTail` | copper/core/set.py:91 | the rest of a selection holds exactly the qualifying positions other than the first |
| `Seqs.WhereEverything` | copper/core/set.py:191-202 | when every column qualifies, the selection is every position in order |
| `Seqs.WhereDisjointUnion` | copper/core/set.py:191-202 | selections by two conditions that never hold together add up to the selection by either condition |
| `Datasets.IdPassAt` | copper/core/set.py:83-85 | after the ID pass, a column is ID exactly when its name is an identifier name, and is unset otherwise |
| `Datasets.TargetPassAt` | copper/core/set.py:87-91 | the target pass makes the first target-named column Target and every later target-named column Reject, and leaves other columns alone |
| `Datasets.MissingPassAt` | copper/core/set.py:93-94 | the missing pass makes a column Reject exactly when more than half its cells are missing, and leaves the others alone |
| `Datasets.ClassifyRolesAt` | copper/core/set.py:82-95 | the role after all passes follows the precedence rule: missing ratio over ID name over first target name over later target name, with Input otherwise |
| `Datasets.ClassifyTypesAt` | copper/core/set.py:97-101 | a column is typed Number exactly when its dtype is int64 or float64, and Category otherwise |
| `Datasets.SetFrame` | copper/core/set.py:70-101 | every column gets one role and one type. ID exactly for identifier names not mostly missing. Target exactly for the first target name not mostly missing. Reject exactly for mostly missing columns and later target names. Input exactly for the remaining columns. Number exactly for int64/float64 storage |
| `Datasets.AtMostOneTarget` | copper/core/set.py:87-91 | after classification no two columns are Target |
| `Datasets.ClassifyExample` | copper/core/set.py:82-95 | for columns "ID", "Age", "Income", "Target" over ten rows with six incomes missing and nothing else missing, the roles are ID, Input, Reject, Target |
| `Views.EveryAdmitsAll` | copper/core/set.py:191-199 | `None` for `role` or `type` admits every role and every type |
| `Views.Select` | copper/core/set.py:191-202 | `filter` keeps exactly the columns whose role is in the role list and whose type is in the type list, in column order, each once |
| `Views.SelectHead` | copper/core/set.py:129 | no column before the first selected one matches the filter |
| `Views.FilterNames` | copper/core/set.py:201-205 | with `ret_cols`, the call fails exactly when `self.columns` is a list (no `tolist`); otherwise the result is the names of the matching columns in column order |
| `Views.FilterFrame` | copper/core/set.py:201-213 | by default, the call fails exactly when `self.columns` is a list; otherwise the result is the frame restricted to the matching columns in column order, over the same rows |
| `Views.FilterDataset` | copper/core/set.py:201-211 | with `ret_ds`, the call fails exactly when `self.columns` is a list; otherwise the result has the matching columns, each carrying the source's role and type rather than a freshly inferred one, and holds its columns as an array again |
| `Views.RefilterKeepsAll` | copper/core/set.py:206-211 | filtering the returned sub-dataset again with the same arguments succeeds and keeps every column of it |
| `Views.FilterEverything` | copper/core/set.py:191-202 | `filter()` with no arguments returns every column, in order, as long as `self.columns` is an array |
| `Views.OneRoleMask` | copper/core/set.py:116 | filtering by one role and no type selects exactly the columns with that role |
| `Views.OneTypeMask` | copper/core/set.py:136 | filtering by one type and no role selects exactly the columns with that type |
| `Views.RoleCounts` | copper/core/set.py:191-202 | the numbers of ID, Input, Target and Reject columns add up to the number of columns |
| `Views.RoleViewsPartition` | copper/core/set.py:191-202 | the four single-role filters partition the columns: a column is in the filter of its own role only, and the four sizes add up to the column count |
| `Views.TypeViewsPartition` | copper/core/set.py:133-146 | `numbers` and `categories` partition the columns the same way |
| `Views.Inputs` | copper/core/set.py:107-116 | `inputs` fails exactly when `self.columns` is a list; otherwise it is exactly the Input-role columns in column order |
| `Views.Numbers` | copper/core/set.py:133-136 | `numbers` fails exactly when `self.columns` is a list; otherwise it is exactly the Number-typed columns in column order |
| `Views.Categories` | copper/core/set.py:141-144 | `categories` fails exactly when `self.columns` is a list; otherwise it is exactly the Category-typed columns in column order |
| `Views.TargetColumn` | copper/core/set.py:120-129 | `target` fails with an AttributeError exactly when `self.columns` is a list, and with an IndexError exactly when it is not and no column has role Target; otherwise it is the first Target column in column order |
| `Views.Metadata` | copper/core/set.py:148-162 | `metadata` has one row per column, in column order, showing that column's name, role, type and dtype, however `self.columns` is held |
| `Views.MetadataAgreesWithFilter` | copper/core/set.py:148-162 | a column is selected by a single role and type exactly when its metadata row shows that role and type |
| `Views.Update` | copper/core/set.py:166-172 | `update` converts, cell by cell, only the columns typed Number and stored as objects; names, roles, types, the way `self.columns` is held and every other column stay as they were |
| `Views.UpdateKeepsSelections` | copper/core/set.py:166-172 | after `update`, every filter selects the same columns as before |
| `Imputation.SelectedNames` | copper/core/set.py:326-329 | with no `cols`, the loop visits one name per column, every column's name among them, and each one is found by a lookup; a single string is a one-name list |
| `Imputation.FillCells` | copper/core/set.py:340 | `fillna(value=v)` on a column replaces exactly the missing cells by `v` |
| `Imputation.FillColumnAs` | copper/core/set.py:340 | assigning the filled column back changes that column's missing cells and, possibly, its dtype, and nothing else: names, roles, types and the other columns stay as they were |
| `Imputation.FillsOnlyKeepsValues` | copper/core/set.py:340 | filling never turns an observed cell back into a missing one |
| `Imputation.FillsOnlyTrans` | copper/core/set.py:332-340 | two fill steps in a row change only cells and dtypes that one of them could change |
| `Imputation.FillColumnAsFillsOnly` | copper/core/set.py:340 | filling the looked-up column changes only its missing cells and its dtype |
| `Imputation.FillValue` | copper/core/set.py:334-339 | a column gets a fill value exactly when it is a Number column that pandas can average, or a Category column with an observed value; the value is the mean for a Number column and the most frequent value for a Category column |
| `Imputation.MeanModeLoop` | copper/core/set.py:331-340 | the 'mean'/'mode' loop changes only missing cells of selected, non-rejected columns, and the dtype of a filled column only; that dtype becomes the one pandas infers after the fill. It fails only on a selected name: with a KeyError when the name is not a column, because pandas cannot average a non-rejected Number column as it stands at that point, or with an IndexError for a non-rejected Category column that had no observed value |
| `Imputation.MeanModeFillsWithValue` | copper/core/set.py:331-340 | when the 'mean'/'mode' loop completes, every selected, non-rejected column had a fill value, and each of its missing cells now holds exactly that value |
| `Imputation.MeanModeCompletes` | copper/core/set.py:331-340 | when the mode of a column with an observed value is an observed value, and so is its mean whenever pandas computes one, a completed 'mean'/'mode' run leaves no missing cell in any selected, non-rejected column that had an observed value |
| `Imputation.MeanFillExample` | copper/core/set.py:331-340 | `fillna()` on a Number column holding 1, a gap and 3, whose mean is 2.0, fills the gap with 2.0 |
| `Imputation.ScalarCell` | copper/core/set.py:349-354 | str, int and finite float values are filled in as an observed cell, text for a str; the float NaN fills in a missing cell; any other type of value fills nothing |
| `Imputation.ValueStep` | copper/core/set.py:348-354 | one column of the explicit-value loop: a rejected column, or a value of another type, leaves the dataset as it was; otherwise the column's missing cells get the value and its dtype becomes the one pandas gives it, or the step fails when pandas refuses the value |
| `Imputation.ValueLoop` | copper/core/set.py:346-354 | the explicit-value loop changes only missing cells and dtypes of selected, non-rejected columns, and fails only on a selected name: with a KeyError when it is not a column, or when pandas refuses the value for that non-rejected column |
| `Imputation.ValueFillsEveryGap` | copper/core/set.py:346-354 | when the explicit-value loop completes, every missing cell of every selected, non-rejected column holds the value |
| `Imputation.NaNFillsNoCell` | copper/core/set.py:346-354 | `fillna(value=np.nan)` changes no cell, whether it completes or raises part-way |
| `Imputation.FillNa` | copper/core/set.py:314-354 | 'knn' with at least one selected column is handed to R, and nothing else is; 'knn' over no columns changes nothing. Every other call changes only missing cells and dtypes of selected, non-rejected columns. An unknown method without `value` returns the dataset unchanged. Errors name a selected column; mean and mode errors come only from 'mean'/'mode', a refused value only from the explicit-value branch |
| `Imputation.AllColumnsFindsEveryName` | copper/core/set.py:326-327 | with no `cols` argument no lookup fails |
| `Renaming.FixNames` | copper/core/set.py:356-370 | as written: `fix_names` fails exactly when `self.columns` is already a list; otherwise column count, cells, dtypes, row count, roles and types stay as they are, position by position, each name loses its ' ', '.' and '-' characters, and `self.columns` becomes a list |
| `Renaming.FixNamesTwiceFails` | copper/core/set.py:362-368 | on the dataset `set_frame` builds from any frame, a first `fix_names` succeeds and a second one fails |
| `Renaming.ViewsFailAfterFixNames` | copper/core/set.py:201 | after a successful `fix_names`, every `filter` call and `inputs`, `numbers`, `categories` and `target` fail |
| `Renaming.FixNamesIntended` | copper/core/set.py:356-370 | corrected: the same renaming, with `self.columns` held as before; it differs from what `fix_names` returns only in that |
| `Renaming.FilterAfterFixNamesIntended` | copper/core/set.py:201-202 | after the corrected renaming, `filter` still succeeds and selects the same positions as before; in the source this holds while the new names stay distinct (see "## Left out") |
| `Renaming.FixNamesIntendedLeavesNoSymbol` | copper/core/set.py:362-366 | after the corrected renaming no column name holds a ' ', '.' or '-' |
| `Renaming.FixNamesIntendedIdempotent` | copper/core/set.py:356-370 | applying the corrected renaming twice is applying it once |

## Findings

| source | as written | input that shows it | evidently intended | confidence | as-written member | corrected member |
|---|---|---|---|---|---|---|
| copper/core/set.py:362-368 | `fix_names` stores the new names in `self.columns` as a Python list, but it and `filter` (line 201) call `self.columns.tolist()` | any dataset: `fix_names()` twice, or `fix_names()` followed by `inputs`, `target`, `numbers`, `categories` or any `filter` call, raises AttributeError | `self.columns` stays an array of names, so renaming can be repeated and the views keep working while the new names stay distinct | high, not executed | `Renaming.FixNames`, `Renaming.FixNamesTwiceFails`, `Renaming.ViewsFailAfterFixNames` | `Renaming.FixNamesIntended`, `Renaming.FixNamesIntendedIdempotent`, `Renaming.FilterAfterFixNamesIntended` |

## Left out

- `load` (`set.py:60-68`) and the path case of the constructor: reading a CSV file is I/O.
- `percent_missing` and `unique_values` (`set.py:220-247`): they delegate to `copper.utils.frame`, which is not part of this model. The missing ratio is taken to be missing cells divided by rows, compared with one half in integers (`2 * missing > rows`). Zero rows give no rejection, as pandas' NaN ratio does. Float rounding of the ratio is not modelled.
- `variance_explained` and `corr` (`set.py:249-312`): singular value decomposition, Pearson correlation and plotting in floating point.
- `histogram`, `__getitem__`, `head`, `tail`, `values` and the other pandas pass-throughs (`set.py:376-424`): display and delegation only.
- `join` (`set.py:426-443`): a pandas index-aligned outer join.
- The 'knn' branch of `fillna` (`set.py:341-345`): a call into R (`copper.r.imputeKNN`), once per selected column. `FillNa` returns `DelegatedToR` when at least one column is selected; with no column selected the loop body never runs, and `FillNa` returns the dataset unchanged.
- The mean and mode values themselves: they are the parameters `mean` and `mode`. `mean` returns `None` when pandas cannot average the column. The tie order of `value_counts` is not fixed by the code.
- `Views.Update`: the conversion `copper.transform.to_number` and pandas' inference of the new dtype are parameters.
- Duplicate column labels: once two columns share a label, reading that label gives a Series rather than one value. The tests on it then raise ValueError (the truth value of a Series is ambiguous). This happens at `self.frame.dtypes[c]` (`set.py:99`), so `set_frame` fails on such a frame. It also happens at `self.type[col]` (`set.py:170`) and `self.role[col]` (`set.py:333`, `set.py:348`), so `update` and `fillna` fail once `fix_names` has merged two names ("a b" and "ab" both become "ab"). As written, `filter` already raises AttributeError at `set.py:201` after `fix_names`; with the corrected `Renaming.FixNamesIntended`, it would raise ValueError at `self.role[col]` (`set.py:202`) instead. The model does not raise there: it classifies and selects by position, and looks a name up at its first column. The two agree whenever the names are distinct.
- Manual overrides of `role` or `type` with strings other than the constants: `Role` and `Type` hold only the constants. In the 'mean'/'mode' loop, a column typed neither Number nor Category reuses the previous column's fill value; that is not modelled.
- Non-string column labels: `str.lower()` would raise on them. Names are strings here.
- Non-ASCII case mapping: `ColumnNames.Lower` lower-cases ASCII letters only. Python 2's `unicode.lower()` also maps some other characters onto ASCII letters: `u'\u0130'.lower() == u'i'`. So a column named `u'\u0130D'` is ID in the source (`set.py:48-52`, `set.py:83-85`) and Input in the model.
- Infinite floats given as `value` to `fillna`: `Scalar.Float` holds a finite real.
- `Imputation.MeanModeLoop`, `Imputation.FillNa`: after a 'mean' or 'mode' fill, pandas re-infers the dtype of an object column. An object column holding True, a gap, False and True, filled with True, becomes bool; one holding whole numbers becomes int64. That changes what `metadata` shows and what `update`'s `dtype == object` test sees. The new dtype is the parameter `refill`, so the model promises no particular dtype after such a fill, only that no other column's dtype changes.
- `Imputation.ValueStep`, `Imputation.ValueLoop`, `Imputation.FillNa`: whether pandas upcasts a column to fit an explicit value (a str into a float64 column becomes object in later pandas) or raises ValueError (older pandas) depends on the pandas version. It is the parameter `fillKind`, so the model promises no particular dtype after an explicit-value fill and no particular set of refused values.
- Consistency between a column's dtype and its cells (for example, an int64 column has no NaN) is not enforced. No rule here depends on it.
- Python 2 `unicode` and `long` values given as `value` to `fillna` fail the `type(value) is str/int` tests; they fall under `OtherScalar`, which fills nothing.

=== FILE: datasets.dfy ===
/** A Dataset: a frame plus one role and one type per column, aligned with
    the columns by position. `SetFrame` is the classification that runs
    whenever a frame is assigned (`Dataset.set_frame`). */
module Datasets {
  import opened Wrappers
  import opened Seqs
  import opened ColumnNames
  import opened Frames

  /** The role constants; `REJECTED` and `REJECT` are the same string. */
  datatype Role = ID | Input | Target | Reject

  /** The type constants `NUMBER` and `CATEGORY`. */
  datatype Type = Number | Category

  /** `columnsAsList` records how `self.columns` is held: `set_frame` stores
      the frame's column index as a NumPy array, and `fix_names` replaces it
      by a Python list, which has no `tolist` method. */
  datatype Dataset = Dataset(frame: Frame, roles: seq<Role>, types: seq<Type>, columnsAsList: bool)

  /** The exceptions the views and `fix_names` raise. */
  datatype DatasetError =
    | ListHasNoToList   // AttributeError from `self.columns.tolist()` once `self.columns` is a list
    | NoTargetColumn    // IndexError from `.ix[:, 0]` on a selection without columns

  /** The frame is rectangular and there is exactly one role and one type
      per column. */
  predicate Valid(ds: Dataset) {
    && Rectangular(ds.frame)
    && |ds.roles| == |ds.frame.columns|
    && |ds.types| == |ds.frame.columns|
  }

  function Width(ds: Dataset): nat {
    |ds.frame.columns|
  }

  predicate IsIdColumn(c: Column) {
    IsIdName(c.name)
  }

  predicate IsTargetColumn(c: Column) {
    IsTargetName(c.name)
  }

  /** Column `i` has a target name and no column before it has one. */
  predicate FirstTargetColumn(cols: seq<Column>, i: nat)
    requires i < |cols|
  {
    IsTargetColumn(cols[i]) && forall j :: 0 <= j < i ==> !IsTargetColumn(cols[j])
  }

  // ---------------------------------------------------------------------------
  // The passes of set_frame, in source order. A role entry is `None` while
  // the pandas series still holds NaN there.

  /** `role[id_cols] = 'ID'` when there is any identifier column. */
  function IdPass(cols: seq<Column>): (r: seq<Option<Role>>)
    ensures |r| == |cols|
  {
    var ids := Where(Flags(cols, IsIdColumn));
    if |ids| > 0 then Assign(Blank(|cols|), ids, ID) else Blank(|cols|)
  }

  /** `role[target_cols[0]] = 'Target'; role[target_cols[1:]] = 'Reject'`
      when there is any target column. */
  function TargetPass(cols: seq<Column>, roles: seq<Option<Role>>): (r: seq<Option<Role>>)
    requires |roles| == |cols|
    ensures |r| == |cols|
  {
    var targets := Where(Flags(cols, IsTargetColumn));
    if |targets| > 0 then Assign(Assign(roles, [targets[0]], Target), targets[1..], Reject)
    else roles
  }

  /** `role[columns with missing ratio > 0.5] = 'Reject'`. */
  function MissingPass(cols: seq<Column>, roles: seq<Option<Role>>): (r: seq<Option<Role>>)
    requires |roles| == |cols|
    ensures |r| == |cols|
  {
    Assign(roles, Where(Flags(cols, MostlyMissing)), Reject)
  }

  /** The role series after all passes, unset entries filled with 'Input'. */
  function ClassifyRoles(cols: seq<Column>): (roles: seq<Role>)
    ensures |roles| == |cols|
  {
    FillNone(MissingPass(cols, TargetPass(cols, IdPass(cols))), Input)
  }

  /** `type[number_cols] = 'Number'`, then every other entry 'Category'. */
  function ClassifyTypes(cols: seq<Column>): (types: seq<Type>)
    ensures |types| == |cols|
  {
    FillNone(Assign(Blank(|cols|), Where(Flags(cols, HasNumericStorage)), Number), Category)
  }

  // ---------------------------------------------------------------------------
  // What each pass leaves at one column

  lemma IdPassAt(cols: seq<Column>, i: nat)
    requires i < |cols|
    ensures IdPass(cols)[i] == if IsIdColumn(cols[i]) then Some(ID) else None
  {
    var ids := Where(Flags(cols, IsIdColumn));
    if IsIdColumn(cols[i]) {
      assert i in ids;
    }
  }

  lemma TargetPassAt(cols: seq<Column>, roles: seq<Option<Role>>, i: nat)
    requires |roles| == |cols| && i < |cols|
    ensures TargetPass(cols, roles)[i] ==
      if FirstTargetColumn(cols, i) then Some(Target)
      else if IsTargetColumn(cols[i]) then Some(Reject)
      else roles[i]
  {
    var flags := Flags(cols, IsTargetColumn);
    WhereHead(flags, i);
    WhereTail(flags, i);
    assert forall j :: 0 <= j < |cols| ==> flags[j] == IsTargetColumn(cols[j]);
    assert FirstOf(flags, i) <==> FirstTargetColumn(cols, i);
  }

  lemma MissingPassAt(cols: seq<Column>, roles: seq<Option<Role>>, i: nat)
    requires |roles| == |cols| && i < |cols|
    ensures MissingPass(cols, roles)[i] == if MostlyMissing(cols[i]) then Some(Reject) else roles[i]
  {
    var rejected := Where(Flags(cols, MostlyMissing));
    if MostlyMissing(cols[i]) {
      assert i in rejected;
    }
  }

  /** Reference rule for the role of one column, in precedence order: the
      missing-ratio rule overrides the name rules, identifier names before
      target names, and every other column is an input. */
  function RoleRule(cols: seq<Column>, i: nat): Role
    requires i < |cols|
  {
    if MostlyMissing(cols[i]) then Reject
    else if IsIdColumn(cols[i]) then ID
    else if FirstTargetColumn(cols, i) then Target
    else if IsTargetColumn(cols[i]) then Reject
    else Input
  }

  /** The passes of `set_frame` give every column the role `RoleRule` names. */
  lemma ClassifyRolesAt(cols: seq<Column>, i: nat)
    requires i < |cols|
    ensures ClassifyRoles(cols)[i] == RoleRule(cols, i)
  {
    IdAndTargetNamesDisjoint(cols[i].name);
    IdPassAt(cols, i);
    TargetPassAt(cols, IdPass(cols), i);
    MissingPassAt(cols, TargetPass(cols, IdPass(cols)), i);
  }

  lemma ClassifyTypesAt(cols: seq<Column>, i: nat)
    requires i < |cols|
    ensures ClassifyTypes(cols)[i] == if HasNumericStorage(cols[i]) then Number else Category
  {
    var numbers := Where(Flags(cols, HasNumericStorage));
    if HasNumericStorage(cols[i]) {
      assert i in numbers;
    }
  }

  lemma ClassifyAll(cols: seq<Column>)
    ensures forall i :: 0 <= i < |cols| ==> ClassifyRoles(cols)[i] == RoleRule(cols, i)
    ensures forall i :: 0 <= i < |cols| ==>
      (ClassifyTypes(cols)[i] == if HasNumericStorage(cols[i]) then Number else Category)
  {
    forall i | 0 <= i < |cols|
      ensures ClassifyRoles(cols)[i] == RoleRule(cols, i)
      ensures ClassifyTypes(cols)[i] == if HasNumericStorage(cols[i]) then Number else Category
    {
      ClassifyRolesAt(cols, i);
      ClassifyTypesAt(cols, i);
    }
  }

  /** `set_frame`: assign the frame and classify every column. Each role and
      type is determined by these rules, in both directions. */
  function SetFrame(f: Frame): (ds: Dataset)
    requires Rectangular(f)
    ensures Valid(ds) && ds.frame == f && !ds.columnsAsList
    ensures forall i :: 0 <= i < |f.columns| ==>
      (ds.types[i] == Number <==> HasNumericStorage(f.columns[i]))
    ensures forall i :: 0 <= i < |f.columns| ==>
      (ds.roles[i] == ID <==> IsIdColumn(f.columns[i]) && !MostlyMissing(f.columns[i]))
    ensures forall i :: 0 <= i < |f.columns| ==>
      (ds.roles[i] == Target <==> FirstTargetColumn(f.columns, i) && !MostlyMissing(f.columns[i]))
    ensures forall i :: 0 <= i < |f.columns| ==>
      (ds.roles[i] == Reject <==>
        MostlyMissing(f.columns[i]) || (IsTargetColumn(f.columns[i]) && !FirstTargetColumn(f.columns, i)))
    ensures forall i :: 0 <= i < |f.columns| ==>
      (ds.roles[i] == Input <==>
        !MostlyMissing(f.columns[i]) && !IsIdColumn(f.columns[i]) && !IsTargetColumn(f.columns[i]))
  {
    ClassifyAll(f.columns);
    forall i | 0 <= i < |f.columns| ensures !(IsIdColumn(f.columns[i]) && IsTargetColumn(f.columns[i])) {
      IdAndTargetNamesDisjoint(f.columns[i].name);
    }
    Dataset(f, ClassifyRoles(f.columns), ClassifyTypes(f.columns), false)
  }

  /** After classification at most one column is the target. */
  lemma AtMostOneTarget(f: Frame, i: nat, j: nat)
    requires Rectangular(f) && i < |f.columns| && j < |f.columns|
    requires SetFrame(f).roles[i] == Target && SetFrame(f).roles[j] == Target
    ensures i == j
  {
  }

  /** How the four names of the worked case below are classified. */
  lemma ExampleNames()
    ensures IsIdName("ID") && !IsTargetName("ID")
    ensures !IsIdName("Age") && !IsTargetName("Age")
    ensures !IsIdName("Income") && !IsTargetName("Income")
    ensures !IsIdName("Target") && IsTargetName("Target")
  {
    IdNameSpellings("ID");
    assert Lower("Income")[0] == 'i';
    assert Lower("Target") == "target";
  }

  lemma FirstTargetOfFour(cols: seq<Column>)
    requires |cols| == 4 && IsTargetColumn(cols[3])
    requires !IsTargetColumn(cols[0]) && !IsTargetColumn(cols[1]) && !IsTargetColumn(cols[2])
    ensures FirstTargetColumn(cols, 3)
  {
  }

  /** The classification of four columns whose name tests and missing
      ratios are those of the worked case below. */
  lemma ExampleRoles(cols: seq<Column>)
    requires |cols| == 4
    requires IsIdColumn(cols[0]) && !IsTargetColumn(cols[0]) && !MostlyMissing(cols[0])
    requires !IsIdColumn(cols[1]) && !IsTargetColumn(cols[1]) && !MostlyMissing(cols[1])
    requires !IsIdColumn(cols[2]) && !IsTargetColumn(cols[2]) && MostlyMissing(cols[2])
    requires !IsIdColumn(cols[3]) && IsTargetColumn(cols[3]) && !MostlyMissing(cols[3])
    ensures ClassifyRoles(cols) == [ID, Input, Reject, Target]
  {
    var roles := ClassifyRoles(cols);
    ClassifyRolesAt(cols, 0);
    ClassifyRolesAt(cols, 1);
    ClassifyRolesAt(cols, 2);
    ClassifyRolesAt(cols, 3);
    FirstTargetOfFour(cols);
    assert roles[0] == ID && roles[1] == Input && roles[2] == Reject && roles[3] == Target;
    assert roles == [roles[0], roles[1], roles[2], roles[3]];
  }

  /** A worked case: columns "ID", "Age", "Income", "Target" over ten rows,
      with six of the ten incomes missing and nothing else missing. */
  lemma ClassifyExample(f: Frame)
    requires Rectangular(f) && f.rows == 10
    requires Names(f) == ["ID", "Age", "Income", "Target"]
    requires MissingCount(f.columns[0].cells) == 0 && MissingCount(f.columns[1].cells) == 0
    requires MissingCount(f.columns[2].cells) == 6 && MissingCount(f.columns[3].cells) == 0
    ensures SetFrame(f).roles == [ID, Input, Reject, Target]
  {
    var cols := f.columns;
    assert cols[0].name == Names(f)[0] && cols[1].name == Names(f)[1];
    assert cols[2].name == Names(f)[2] && cols[3].name == Names(f)[3];
    ExampleNames();
    assert |cols[0].cells| == |cols[1].cells| == |cols[2].cells| == |cols[3].cells| == 10;
    ExampleRoles(cols);
  }
}

=== FILE: frames.dfy ===
/** The pandas DataFrame a Dataset wraps, reduced to what the classification
    and selection rules look at: named columns in order, each with a storage
    kind (its dtype) and its cells, and a row count shared by every column. */
module Frames {
  import opened Wrappers
  import opened Seqs

  /** One entry of a column: NaN/None, a number, or any other object. */
  datatype Cell = Missing | Num(x: real) | Text(s: string)

  /** The dtype of a column. Only int64 and float64 count as numeric storage;
      `Object` is the dtype of text columns; `OtherKind` stands for every
      other dtype (bool, int32, datetime, ...). */
  datatype Kind = Int64 | Float64 | Object | OtherKind

  datatype Column = Column(name: string, kind: Kind, cells: seq<Cell>)

  /** `rows` is the length of the frame's index; it exists even when the
      frame has no column left after a selection. */
  datatype Frame = Frame(columns: seq<Column>, rows: nat)

  /** Every column has one cell per row. */
  predicate Rectangular(f: Frame) {
    forall i :: 0 <= i < |f.columns| ==> |f.columns[i].cells| == f.rows
  }

  function Names(f: Frame): (names: seq<string>)
    ensures |names| == |f.columns|
  {
    seq(|f.columns|, i requires 0 <= i < |f.columns| => f.columns[i].name)
  }

  /** Which columns pass a test, one flag per column. */
  function Flags(cols: seq<Column>, test: Column -> bool): (mask: seq<bool>)
    ensures |mask| == |cols|
  {
    seq(|cols|, i requires 0 <= i < |cols| => test(cols[i]))
  }

  /** `dtype in (np.int64, np.float64)`. */
  predicate HasNumericStorage(c: Column) {
    c.kind == Int64 || c.kind == Float64
  }

  function MissingCount(cells: seq<Cell>): (n: nat)
    ensures n <= |cells|
  {
    if |cells| == 0 then 0
    else (if cells[0] == Missing then 1 else 0) + MissingCount(cells[1..])
  }

  /** Some cell is not missing (the column has at least one observed value). */
  predicate HasValue(cells: seq<Cell>) {
    exists k :: 0 <= k < |cells| && cells[k] != Missing
  }

  /** A column has no observed value exactly when all of its cells are missing. */
  lemma {:induction false} NoValueIffAllMissing(cells: seq<Cell>)
    ensures !HasValue(cells) <==> MissingCount(cells) == |cells|
  {
    if |cells| > 0 {
      NoValueIffAllMissing(cells[1..]);
      if cells[0] == Missing && HasValue(cells[1..]) {
        var k :| 0 <= k < |cells[1..]| && cells[1..][k] != Missing;
        assert cells[k + 1] != Missing;
      }
      if HasValue(cells) && cells[0] == Missing {
        var k :| 0 <= k < |cells| && cells[k] != Missing;
        assert cells[1..][k - 1] != Missing;
      }
    }
  }

  /** The missing ratio (missing cells / rows) exceeds one half, compared in
      integers. With zero rows the ratio is NaN in pandas and the comparison
      is false; here `0 > 0` is false too. */
  predicate MostlyMissing(c: Column) {
    2 * MissingCount(c.cells) > |c.cells|
  }

  /** The position of the first column called `name`: what a label lookup
      `frame[name]` or `role[name]` resolves to. */
  function Find(names: seq<string>, name: string): (r: Option<nat>)
    ensures r.None? <==> name !in names
    ensures r.Some? ==> r.value < |names| && names[r.value] == name
    ensures r.Some? ==> forall j :: 0 <= j < r.value ==> names[j] != name
  {
    if |names| == 0 then None
    else if names[0] == name then Some(0)
    else match Find(names[1..], name)
      case None => None
      case Some(k) => Some(k + 1)
  }

  /** `frame[cols]`: the columns at the given positions, in that order, over
      the same rows. */
  function Project(f: Frame, at: seq<nat>): (r: Frame)
    requires forall k :: 0 <= k < |at| ==> at[k] < |f.columns|
    ensures Rectangular(f) ==> Rectangular(r)
    ensures |r.columns| == |at| && r.rows == f.rows
  {
    Frame(Pick(f.columns, at), f.rows)
  }
}

=== FILE: imputation.dfy ===
/** Missing-value imputation, `Dataset.fillna(cols, method, value)`.

    The fill values themselves are parameters: `mean` stands for pandas'
    `Series.mean()` (`None` when pandas raises, e.g. on text), `mode` for
    the first entry of `value_counts()`, `refill` for the dtype pandas
    infers for a column once a mean or mode is put in it (an object column
    left holding only bools becomes bool), and `fillKind` for the dtype
    pandas gives a column once an explicit value is put in it (`None` when
    pandas refuses the value). Selected columns are looked up by name, one after
    the other, so an exception part-way leaves the earlier columns filled:
    `Raised` carries the dataset as it was at that point. */
module Imputation {
  import opened Wrappers
  import opened Frames
  import opened Datasets

  /** The `cols` argument: `None` (every column), one name, or a list. */
  datatype Selection = AllColumns | OneColumn(name: string) | ColumnList(names: seq<string>)

  /** An explicit `value` argument, by its Python type. `Float` is a finite
      float and `NaN` the float `np.nan`, which passes the `float` test like
      any other; `OtherScalar` is any value whose type is none of str, int
      and float (bool, unicode, ...). */
  datatype Scalar = Str(s: string) | Int(n: int) | Float(x: real) | NaN | OtherScalar

  datatype FillError =
    | UnknownColumn(name: string)   // KeyError from `self.role[col]`
    | NoModalValue(name: string)    // IndexError from `value_counts().index[0]`
    | MeanFailed(name: string)      // pandas could not average the column
    | FillRejected(name: string)    // pandas could not put the explicit value in the column

  datatype FillOutcome =
    | Filled(ds: Dataset)
    | Raised(ds: Dataset, error: FillError)
    | DelegatedToR                  // the 'knn' branch: R's imputeKNN, not modelled

  /** The names the loop visits, in order. With `cols=None` these are the
      dataset's own column names, so every lookup of them succeeds. */
  function SelectedNames(ds: Dataset, sel: Selection): (names: seq<string>)
    ensures sel.AllColumns? ==> |names| == |ds.frame.columns|
    ensures sel.AllColumns? ==> forall k :: 0 <= k < |names| ==> Find(Names(ds.frame), names[k]).Some?
    ensures sel.AllColumns? ==> forall i :: 0 <= i < |ds.frame.columns| ==> ds.frame.columns[i].name in names
    ensures sel.OneColumn? ==> names == [sel.name]
    ensures sel.ColumnList? ==> names == sel.names
  {
    match sel
    case AllColumns =>
      assert forall i :: 0 <= i < |ds.frame.columns| ==>
        ds.frame.columns[i].name == Names(ds.frame)[i] && Names(ds.frame)[i] in Names(ds.frame);
      Names(ds.frame)
    case OneColumn(n) => [n]
    case ColumnList(ns) => ns
  }

  /** `series.fillna(value=v)`: every missing cell becomes `v`. */
  function FillCells(cells: seq<Cell>, v: Cell): (r: seq<Cell>)
    ensures |r| == |cells|
    ensures forall j :: 0 <= j < |cells| && cells[j] != Missing ==> r[j] == cells[j]
    ensures forall j :: 0 <= j < |cells| && cells[j] == Missing ==> r[j] == v
  {
    seq(|cells|, j requires 0 <= j < |cells| => if cells[j] == Missing then v else cells[j])
  }

  /** `self[col] = self[col].fillna(value=v)` for the column at position `i`,
      whose dtype is `k` afterwards; nothing else changes. */
  function FillColumnAs(ds: Dataset, i: nat, v: Cell, k: Kind): (r: Dataset)
    requires Valid(ds) && i < Width(ds)
    ensures SameLayout(ds, r)
    ensures r.frame.columns[i].kind == k
    ensures r.frame.columns[i].cells == FillCells(ds.frame.columns[i].cells, v)
    ensures forall i' :: 0 <= i' < Width(ds) && i' != i ==> r.frame.columns[i'] == ds.frame.columns[i']
  {
    var c := ds.frame.columns[i];
    var r := ds.(frame := Frame(ds.frame.columns[i := Column(c.name, k, FillCells(c.cells, v))], ds.frame.rows));
    assert Names(r.frame) == Names(ds.frame);
    r
  }

  /** The same, with the dtype pandas infers for the filled column. */
  function FillColumnAt(ds: Dataset, i: nat, v: Cell, refill: (Column, Cell) -> Kind): (r: Dataset)
    requires Valid(ds) && i < Width(ds)
    ensures SameLayout(ds, r) && r.frame.columns[i].kind == refill(ds.frame.columns[i], v)
  {
    FillColumnAs(ds, i, v, refill(ds.frame.columns[i], v))
  }

  // ---------------------------------------------------------------------------
  // What may change

  /** Same columns, names, row count, roles and types, and the same way of
      holding `self.columns`; cells and dtypes may differ. */
  predicate SameLayout(a: Dataset, b: Dataset) {
    && Valid(a) && Valid(b)
    && b.frame.rows == a.frame.rows
    && Width(b) == Width(a)
    && b.roles == a.roles && b.types == a.types
    && Names(b.frame) == Names(a.frame)
    && b.columnsAsList == a.columnsAsList
  }

  /** Column `i` is the one a lookup of one of `names` resolves to. */
  predicate Targeted(a: Dataset, names: seq<string>, i: nat)
    requires i < Width(a)
  {
    a.frame.columns[i].name in names && Find(Names(a.frame), a.frame.columns[i].name) == Some(i)
  }

  /** `b` differs from `a` only in cells that were missing in `a` and in
      dtypes, both only of columns that a lookup of one of `names` resolves
      to and whose role is not Reject. */
  predicate FillsOnly(a: Dataset, b: Dataset, names: seq<string>) {
    && SameLayout(a, b)
    && (forall i, j ::
        (0 <= i < Width(a) && 0 <= j < a.frame.rows &&
         b.frame.columns[i].cells[j] != a.frame.columns[i].cells[j]) ==>
        && a.frame.columns[i].cells[j] == Missing
        && a.roles[i] != Reject
        && Targeted(a, names, i))
    && (forall i :: 0 <= i < Width(a) && b.frame.columns[i].kind != a.frame.columns[i].kind ==>
        a.roles[i] != Reject && Targeted(a, names, i))
  }

  lemma FillsOnlyRefl(a: Dataset, names: seq<string>)
    requires Valid(a)
    ensures FillsOnly(a, a, names)
  {
  }

  lemma FillsOnlyTrans(a: Dataset, b: Dataset, c: Dataset, n1: seq<string>, n2: seq<string>)
    requires FillsOnly(a, b, n1) && FillsOnly(b, c, n2)
    ensures FillsOnly(a, c, n1 + n2)
  {
    forall i | 0 <= i < Width(a)
      ensures Targeted(a, n1, i) ==> Targeted(a, n1 + n2, i)
      ensures Targeted(b, n2, i) ==> Targeted(a, n1 + n2, i)
    {
      assert b.frame.columns[i].name == Names(b.frame)[i] == Names(a.frame)[i] == a.frame.columns[i].name;
    }
  }

  /** Filling never turns a present cell back into a missing one. */
  lemma FillsOnlyKeepsValues(a: Dataset, b: Dataset, names: seq<string>, i: nat)
    requires FillsOnly(a, b, names) && i < Width(a)
    ensures HasValue(a.frame.columns[i].cells) ==> HasValue(b.frame.columns[i].cells)
    ensures (forall j :: 0 <= j < a.frame.rows ==> a.frame.columns[i].cells[j] != Missing) ==>
            (forall j :: 0 <= j < a.frame.rows ==> b.frame.columns[i].cells[j] != Missing)
  {
    if HasValue(a.frame.columns[i].cells) {
      var k :| 0 <= k < |a.frame.columns[i].cells| && a.frame.columns[i].cells[k] != Missing;
      assert b.frame.columns[i].cells[k] != Missing;
    }
  }

  /** A step on the first name followed by steps on the rest. */
  lemma FillsOnlyCons(a: Dataset, b: Dataset, c: Dataset, names: seq<string>)
    requires |names| > 0 && FillsOnly(a, b, [names[0]]) && FillsOnly(b, c, names[1..])
    ensures FillsOnly(a, c, names)
  {
    FillsOnlyTrans(a, b, c, [names[0]], names[1..]);
    assert [names[0]] + names[1..] == names;
  }

  lemma FillColumnAsFillsOnly(ds: Dataset, name: string, i: nat, v: Cell, k: Kind)
    requires Valid(ds) && Find(Names(ds.frame), name) == Some(i) && ds.roles[i] != Reject
    ensures FillsOnly(ds, FillColumnAs(ds, i, v, k), [name])
  {
  }

  /** A later name that differs from the first one resolves to a column
      other than the first one's. */
  lemma TargetedRest(ds: Dataset, names: seq<string>, i0: nat, i: nat)
    requires Valid(ds) && |names| > 0 && Find(Names(ds.frame), names[0]) == Some(i0)
    requires i < Width(ds) && Targeted(ds, names, i) && i != i0
    ensures Targeted(ds, names[1..], i)
  {
    assert ds.frame.columns[i].name == Names(ds.frame)[i];
  }

  // ---------------------------------------------------------------------------
  // The branches of fillna

  /** The fill value of the 'mean'/'mode' loop for column `i`, when there is
      one: the mean of a Number column when pandas can average it, the mode
      of a Category column with an observed value. */
  function FillValue(ds: Dataset, i: nat, mean: seq<Cell> -> Option<Cell>, mode: seq<Cell> -> Cell): (r: Option<Cell>)
    requires Valid(ds) && i < Width(ds)
    ensures r.Some? <==> (ds.types[i] == Number && mean(ds.frame.columns[i].cells).Some?) ||
                         (ds.types[i] == Category && HasValue(ds.frame.columns[i].cells))
    ensures r.Some? && ds.types[i] == Number ==> r == mean(ds.frame.columns[i].cells)
    ensures r.Some? && ds.types[i] == Category ==> r.value == mode(ds.frame.columns[i].cells)
  {
    var cells := ds.frame.columns[i].cells;
    match ds.types[i]
    case Number => mean(cells)
    case Category => if HasValue(cells) then Some(mode(cells)) else None
  }

  /** Why a 'mean'/'mode' run raised: a name that is no column; a Number
      column, not rejected, that pandas could not average as it stood when
      the loop reached it; or a Category column, not rejected, without a
      single observed value. */
  predicate ExplainsRaise(ds: Dataset, r: FillOutcome, mean: seq<Cell> -> Option<Cell>)
    requires Valid(ds) && r.Raised? && Valid(r.ds) && Width(r.ds) == Width(ds)
  {
    match r.error
    case UnknownColumn(n) => n !in Names(ds.frame)
    case MeanFailed(n) =>
      Find(Names(ds.frame), n).Some? &&
      var i := Find(Names(ds.frame), n).value;
      ds.types[i] == Number && ds.roles[i] != Reject && mean(r.ds.frame.columns[i].cells).None?
    case NoModalValue(n) =>
      Find(Names(ds.frame), n).Some? &&
      var i := Find(Names(ds.frame), n).value;
      ds.types[i] == Category && ds.roles[i] != Reject && !HasValue(ds.frame.columns[i].cells)
    case FillRejected(_) => false
  }

  /** The explanation of a raise holds from any earlier point of the run. */
  lemma ExplainsRaiseBack(a: Dataset, b: Dataset, names: seq<string>, r: FillOutcome,
                          mean: seq<Cell> -> Option<Cell>)
    requires FillsOnly(a, b, names) && r.Raised? && Valid(r.ds) && Width(r.ds) == Width(b)
    requires ExplainsRaise(b, r, mean)
    ensures ExplainsRaise(a, r, mean)
  {
    if r.error.NoModalValue? {
      FillsOnlyKeepsValues(a, b, names, Find(Names(a.frame), r.error.name).value);
    }
  }

  /** The 'mean'/'mode' loop: every selected column that is not rejected is
      filled with its mean when it is a Number and with its most frequent
      value when it is a Category, whichever of the two methods was asked. */
  function MeanModeLoop(ds: Dataset, names: seq<string>,
                        mean: seq<Cell> -> Option<Cell>, mode: seq<Cell> -> Cell,
                        refill: (Column, Cell) -> Kind): (r: FillOutcome)
    requires Valid(ds)
    ensures !r.DelegatedToR?
    ensures FillsOnly(ds, r.ds, names)
    ensures r.Raised? ==> r.error.name in names && ExplainsRaise(ds, r, mean)
    decreases |names|
  {
    if |names| == 0 then FillsOnlyRefl(ds, names); Filled(ds)
    else
      var name := names[0];
      match Find(Names(ds.frame), name)
      case None => FillsOnlyRefl(ds, names); Raised(ds, UnknownColumn(name))
      case Some(i) =>
        if ds.roles[i] == Reject then
          var r := MeanModeLoop(ds, names[1..], mean, mode, refill);
          FillsOnlyRefl(ds, [name]);
          FillsOnlyCons(ds, ds, r.ds, names);
          r
        else if FillValue(ds, i, mean, mode).None? then
          FillsOnlyRefl(ds, names);
          Raised(ds, if ds.types[i] == Number then MeanFailed(name) else NoModalValue(name))
        else
          var v := FillValue(ds, i, mean, mode).value;
          var next := FillColumnAt(ds, i, v, refill);
          var r := MeanModeLoop(next, names[1..], mean, mode, refill);
          FillColumnAsFillsOnly(ds, name, i, v, refill(ds.frame.columns[i], v));
          FillsOnlyCons(ds, next, r.ds, names);
          if r.Raised? then ExplainsRaiseBack(ds, next, [name], r, mean); r else r
  }

  /** When the first name is a column that gets a fill value, the loop fills
      it and goes on with the rest. */
  lemma MeanModeLoopFillsFirst(ds: Dataset, names: seq<string>,
                               mean: seq<Cell> -> Option<Cell>, mode: seq<Cell> -> Cell,
                               refill: (Column, Cell) -> Kind, i0: nat)
    requires Valid(ds) && |names| > 0 && Find(Names(ds.frame), names[0]) == Some(i0)
    requires ds.roles[i0] != Reject && FillValue(ds, i0, mean, mode).Some?
    ensures MeanModeLoop(ds, names, mean, mode, refill) ==
            MeanModeLoop(FillColumnAt(ds, i0, FillValue(ds, i0, mean, mode).value, refill), names[1..], mean, mode, refill)
  {
  }

  /** Every column a lookup of one of `names` resolves to and that is not
      rejected had a fill value in `ds`, and each of its cells missing in
      `ds` holds that value in `rds`. */
  predicate FilledWithFillValues(ds: Dataset, names: seq<string>, rds: Dataset,
                                 mean: seq<Cell> -> Option<Cell>, mode: seq<Cell> -> Cell)
    requires SameLayout(ds, rds)
  {
    forall i :: 0 <= i < Width(ds) && Targeted(ds, names, i) && ds.roles[i] != Reject ==>
      && FillValue(ds, i, mean, mode).Some?
      && forall j :: 0 <= j < ds.frame.rows && ds.frame.columns[i].cells[j] == Missing ==>
           rds.frame.columns[i].cells[j] == FillValue(ds, i, mean, mode).value
  }

  /** One filling step of the 'mean'/'mode' loop, seen from column `i`. */
  lemma FilledAt(ds: Dataset, next: Dataset, rds: Dataset, names: seq<string>,
                 mean: seq<Cell> -> Option<Cell>, mode: seq<Cell> -> Cell,
                 refill: (Column, Cell) -> Kind, i0: nat, i: nat)
    requires Valid(ds) && |names| > 0 && Find(Names(ds.frame), names[0]) == Some(i0)
    requires ds.roles[i0] != Reject && FillValue(ds, i0, mean, mode).Some?
    requires next == FillColumnAt(ds, i0, FillValue(ds, i0, mean, mode).value, refill)
    requires FillsOnly(next, rds, names[1..]) && FilledWithFillValues(next, names[1..], rds, mean, mode)
    requires i < Width(ds) && Targeted(ds, names, i) && ds.roles[i] != Reject
    ensures FillValue(ds, i, mean, mode).Some?
    ensures forall j :: 0 <= j < ds.frame.rows && ds.frame.columns[i].cells[j] == Missing ==>
      rds.frame.columns[i].cells[j] == FillValue(ds, i, mean, mode).value
  {
    var v := FillValue(ds, i0, mean, mode).value;
    assert Names(next.frame) == Names(ds.frame);
    assert next.frame.columns[i].name == Names(next.frame)[i] == ds.frame.columns[i].name;
    if i != i0 {
      TargetedRest(ds, names, i0, i);
      assert next.frame.columns[i] == ds.frame.columns[i];
      assert FillValue(next, i, mean, mode) == FillValue(ds, i, mean, mode);
    } else if v == Missing {
      assert next.frame.columns[i].cells == ds.frame.columns[i].cells;
      assert FillValue(next, i, mean, mode) == FillValue(ds, i, mean, mode);
    }
  }

  /** A 'mean'/'mode' run that completes found a fill value for every
      selected, non-rejected column and put it in each of that column's
      missing cells. */
  lemma {:induction false} MeanModeFillsWithValue(ds: Dataset, names: seq<string>,
                                                  mean: seq<Cell> -> Option<Cell>, mode: seq<Cell> -> Cell,
                        refill: (Column, Cell) -> Kind)
    requires Valid(ds)
    ensures var r := MeanModeLoop(ds, names, mean, mode, refill);
      r.Filled? ==> FilledWithFillValues(ds, names, r.ds, mean, mode)
    decreases |names|
  {
    if |names| > 0 {
      match Find(Names(ds.frame), names[0])
      case None =>
      case Some(i0) =>
        if ds.roles[i0] == Reject {
          var r := MeanModeLoop(ds, names[1..], mean, mode, refill);
          MeanModeFillsWithValue(ds, names[1..], mean, mode, refill);
          forall i | 0 <= i < Width(ds) && Targeted(ds, names, i) && ds.roles[i] != Reject
            ensures Targeted(ds, names[1..], i)
          {
            TargetedRest(ds, names, i0, i);
          }
        } else if FillValue(ds, i0, mean, mode).Some? {
          var next := FillColumnAt(ds, i0, FillValue(ds, i0, mean, mode).value, refill);
          var r := MeanModeLoop(next, names[1..], mean, mode, refill);
          MeanModeLoopFillsFirst(ds, names, mean, mode, refill, i0);
          MeanModeFillsWithValue(next, names[1..], mean, mode, refill);
          if r.Filled? {
            forall i | 0 <= i < Width(ds) && Targeted(ds, names, i) && ds.roles[i] != Reject
              ensures FillValue(ds, i, mean, mode).Some?
              ensures forall j :: 0 <= j < ds.frame.rows && ds.frame.columns[i].cells[j] == Missing ==>
                r.ds.frame.columns[i].cells[j] == FillValue(ds, i, mean, mode).value
            {
              FilledAt(ds, next, r.ds, names, mean, mode, refill, i0, i);
            }
          }
        }
    }
  }

  /** Every cell of every column that a lookup of one of `names` resolves
      to, that is not rejected and that has an observed value in `ds`, is
      present in `rds`. */
  predicate CompletesTargets(ds: Dataset, names: seq<string>, rds: Dataset)
    requires SameLayout(ds, rds)
  {
    forall i, j ::
      (0 <= i < Width(ds) && Targeted(ds, names, i) && ds.roles[i] != Reject &&
       HasValue(ds.frame.columns[i].cells) && 0 <= j < ds.frame.rows) ==>
      rds.frame.columns[i].cells[j] != Missing
  }

  /** When the mode of a column with an observed value is itself an observed
      value, and so is its mean whenever pandas computes one, a 'mean'/'mode'
      run that completes leaves no missing cell in any selected, non-rejected
      column that had at least one observed value. */
  lemma MeanModeCompletes(ds: Dataset, names: seq<string>,
                          mean: seq<Cell> -> Option<Cell>, mode: seq<Cell> -> Cell,
                        refill: (Column, Cell) -> Kind)
    requires Valid(ds)
    requires forall c :: HasValue(c) ==> mode(c) != Missing
    requires forall c :: HasValue(c) && mean(c).Some? ==> mean(c).value != Missing
    ensures var r := MeanModeLoop(ds, names, mean, mode, refill);
      r.Filled? ==> CompletesTargets(ds, names, r.ds)
  {
    var r := MeanModeLoop(ds, names, mean, mode, refill);
    if r.Filled? {
      MeanModeFillsWithValue(ds, names, mean, mode, refill);
      forall i, j | 0 <= i < Width(ds) && Targeted(ds, names, i) && ds.roles[i] != Reject &&
          HasValue(ds.frame.columns[i].cells) && 0 <= j < ds.frame.rows
        ensures r.ds.frame.columns[i].cells[j] != Missing
      {
        var cells := ds.frame.columns[i].cells;
        if cells[j] == Missing {
          assert FillValue(ds, i, mean, mode).value != Missing;
        }
      }
    }
  }

  /** The cell an explicit `value` fills with, if its type is one the code
      tests for. Filling with NaN puts a missing cell in place of a missing
      cell. */
  function ScalarCell(v: Scalar): (c: Option<Cell>)
    ensures c.Some? <==> !v.OtherScalar?
    ensures c.Some? ==> (c.value == Missing <==> v.NaN?)
    ensures v.Str? ==> c == Some(Text(v.s))
  {
    match v
    case Str(s) => Some(Text(s))
    case Int(n) => Some(Num(n as real))
    case Float(x) => Some(Num(x))
    case NaN => Some(Missing)
    case OtherScalar => None
  }

  /** One column of the explicit-value loop: a column that is not rejected
      gets the value in its missing cells and the dtype pandas then gives
      it, unless pandas refuses the value. */
  function ValueStep(ds: Dataset, name: string, i: nat, v: Scalar,
                     fillKind: (Column, Cell) -> Option<Kind>): (r: Result<Dataset, FillError>)
    requires Valid(ds) && Find(Names(ds.frame), name) == Some(i)
    ensures r.Err? <==> ds.roles[i] != Reject && ScalarCell(v).Some? &&
                        fillKind(ds.frame.columns[i], ScalarCell(v).value).None?
    ensures r.Err? ==> r.error == FillRejected(name)
    ensures r.Ok? ==> FillsOnly(ds, r.value, [name])
    ensures r.Ok? && (ds.roles[i] == Reject || ScalarCell(v).None?) ==> r.value == ds
    ensures r.Ok? && ds.roles[i] != Reject && ScalarCell(v).Some? ==>
      && r.value.frame.columns[i].kind == fillKind(ds.frame.columns[i], ScalarCell(v).value).value
      && forall j :: 0 <= j < ds.frame.rows && ds.frame.columns[i].cells[j] == Missing ==>
           r.value.frame.columns[i].cells[j] == ScalarCell(v).value
  {
    if ds.roles[i] != Reject && ScalarCell(v).Some? then
      var c := ScalarCell(v).value;
      match fillKind(ds.frame.columns[i], c)
      case None => Err(FillRejected(name))
      case Some(k) =>
        FillColumnAsFillsOnly(ds, name, i, c, k);
        Ok(FillColumnAs(ds, i, c, k))
    else
      FillsOnlyRefl(ds, [name]); Ok(ds)
  }

  /** The explicit-value loop. Its extra guards compare a role with the
      type constants 'Category' and 'Number', which a role never equals, so
      every selected column that is not rejected is filled whatever its type. */
  function ValueLoop(ds: Dataset, names: seq<string>, v: Scalar,
                     fillKind: (Column, Cell) -> Option<Kind>): (r: FillOutcome)
    requires Valid(ds)
    ensures !r.DelegatedToR?
    ensures FillsOnly(ds, r.ds, names)
    ensures ScalarCell(v).None? ==> r.ds == ds
    ensures r.Raised? ==> r.error.name in names && (r.error.UnknownColumn? || r.error.FillRejected?)
    ensures r.Raised? && r.error.UnknownColumn? ==> r.error.name !in Names(ds.frame)
    ensures r.Raised? && r.error.FillRejected? ==>
      Find(Names(ds.frame), r.error.name).Some? &&
      var i := Find(Names(ds.frame), r.error.name).value;
      ds.roles[i] != Reject && ScalarCell(v).Some? &&
      fillKind(r.ds.frame.columns[i], ScalarCell(v).value).None?
    decreases |names|
  {
    if |names| == 0 then FillsOnlyRefl(ds, names); Filled(ds)
    else
      match Find(Names(ds.frame), names[0])
      case None => FillsOnlyRefl(ds, names); Raised(ds, UnknownColumn(names[0]))
      case Some(i) =>
        match ValueStep(ds, names[0], i, v, fillKind)
        case Err(e) => FillsOnlyRefl(ds, names); Raised(ds, e)
        case Ok(next) =>
          var r := ValueLoop(next, names[1..], v, fillKind);
          FillsOnlyCons(ds, next, r.ds, names);
          r
  }

  /** Every cell missing in `ds` of every column that a lookup of one of
      `names` resolves to and that is not rejected holds `c` in `rds`. */
  predicate FilledWith(ds: Dataset, names: seq<string>, rds: Dataset, c: Cell)
    requires SameLayout(ds, rds)
  {
    forall i, j ::
      (0 <= i < Width(ds) && Targeted(ds, names, i) && ds.roles[i] != Reject &&
       0 <= j < ds.frame.rows && ds.frame.columns[i].cells[j] == Missing) ==>
      rds.frame.columns[i].cells[j] == c
  }

  /** One step of the explicit-value loop followed by the rest of it. */
  lemma FilledWithAfterStep(ds: Dataset, next: Dataset, rds: Dataset, names: seq<string>, i0: nat, c: Cell)
    requires Valid(ds) && |names| > 0 && Find(Names(ds.frame), names[0]) == Some(i0)
    requires FillsOnly(ds, next, [names[0]])
    requires ds.roles[i0] != Reject ==>
      forall j :: 0 <= j < ds.frame.rows && ds.frame.columns[i0].cells[j] == Missing ==>
        next.frame.columns[i0].cells[j] == c
    requires FillsOnly(next, rds, names[1..]) && FilledWith(next, names[1..], rds, c)
    ensures FilledWith(ds, names, rds, c)
  {
    forall i, j | 0 <= i < Width(ds) && Targeted(ds, names, i) && ds.roles[i] != Reject &&
        0 <= j < ds.frame.rows && ds.frame.columns[i].cells[j] == Missing
      ensures rds.frame.columns[i].cells[j] == c
    {
      if i != i0 {
        TargetedRest(ds, names, i0, i);
        assert next.frame.columns[i].name == Names(next.frame)[i] == ds.frame.columns[i].name;
        assert !Targeted(ds, [names[0]], i);
      }
    }
  }

  /** An explicit-value run that completes puts the value in every missing
      cell of every selected, non-rejected column. */
  lemma {:induction false} ValueFillsEveryGap(ds: Dataset, names: seq<string>, v: Scalar,
                                               fillKind: (Column, Cell) -> Option<Kind>)
    requires Valid(ds) && ScalarCell(v).Some?
    ensures var r := ValueLoop(ds, names, v, fillKind);
      r.Filled? ==> FilledWith(ds, names, r.ds, ScalarCell(v).value)
    decreases |names|
  {
    if |names| > 0 {
      match Find(Names(ds.frame), names[0])
      case None =>
      case Some(i0) =>
        match ValueStep(ds, names[0], i0, v, fillKind)
        case Err(_) =>
        case Ok(next) =>
          var r := ValueLoop(next, names[1..], v, fillKind);
          assert ValueLoop(ds, names, v, fillKind) == r;
          ValueFillsEveryGap(next, names[1..], v, fillKind);
          if r.Filled? {
            FilledWithAfterStep(ds, next, r.ds, names, i0, ScalarCell(v).value);
          }
    }
  }

  /** `fillna(value=np.nan)` fills NaN with NaN: whatever it completes or
      stops at, no cell has changed. */
  lemma {:induction false} NaNFillsNoCell(ds: Dataset, names: seq<string>, fillKind: (Column, Cell) -> Option<Kind>)
    requires Valid(ds)
    ensures var r := ValueLoop(ds, names, NaN, fillKind);
      forall i, j :: 0 <= i < Width(ds) && 0 <= j < ds.frame.rows ==>
        r.ds.frame.columns[i].cells[j] == ds.frame.columns[i].cells[j]
    decreases |names|
  {
    if |names| > 0 {
      match Find(Names(ds.frame), names[0])
      case None =>
      case Some(i0) =>
        match ValueStep(ds, names[0], i0, NaN, fillKind)
        case Err(_) =>
        case Ok(next) =>
          assert ValueLoop(ds, names, NaN, fillKind) == ValueLoop(next, names[1..], NaN, fillKind);
          NaNFillsNoCell(next, names[1..], fillKind);
    }
  }

  /** `fillna(cols, method, value)`: dispatch on the method name `how`. An
      unrecognised method with no `value` does nothing and raises nothing;
      'knn' calls into R once per selected column, so an empty selection
      does nothing either. */
  function FillNa(ds: Dataset, sel: Selection, how: string, value: Option<Scalar>,
                  mean: seq<Cell> -> Option<Cell>, mode: seq<Cell> -> Cell,
                  refill: (Column, Cell) -> Kind, fillKind: (Column, Cell) -> Option<Kind>): (r: FillOutcome)
    requires Valid(ds)
    ensures r.DelegatedToR? <==> how == "knn" && |SelectedNames(ds, sel)| > 0
    ensures !r.DelegatedToR? ==> FillsOnly(ds, r.ds, SelectedNames(ds, sel))
    ensures how == "knn" && |SelectedNames(ds, sel)| == 0 ==> r == Filled(ds)
    ensures how != "mean" && how != "mode" && how != "knn" && value.None? ==> r == Filled(ds)
    ensures (how == "mean" || how == "mode") ==> !r.DelegatedToR?
    ensures r.Raised? ==> r.error.name in SelectedNames(ds, sel)
    ensures r.Raised? && r.error.UnknownColumn? ==> r.error.name !in Names(ds.frame)
    ensures r.Raised? && (how == "mean" || how == "mode") ==> ExplainsRaise(ds, r, mean)
    ensures r.Raised? && !r.error.UnknownColumn? && !r.error.FillRejected? ==> how == "mean" || how == "mode"
    ensures r.Raised? && r.error.FillRejected? ==> how != "mean" && how != "mode" && value.Some?
  {
    var names := SelectedNames(ds, sel);
    if how == "mean" || how == "mode" then MeanModeLoop(ds, names, mean, mode, refill)
    else if how == "knn" then
      if |names| > 0 then DelegatedToR else FillsOnlyRefl(ds, names); Filled(ds)
    else if value.Some? then ValueLoop(ds, names, value.value, fillKind)
    else FillsOnlyRefl(ds, names); Filled(ds)
  }

  /** With every column selected, no lookup fails. */
  lemma AllColumnsFindsEveryName(ds: Dataset, how: string, value: Option<Scalar>,
                                 mean: seq<Cell> -> Option<Cell>, mode: seq<Cell> -> Cell,
                                 refill: (Column, Cell) -> Kind, fillKind: (Column, Cell) -> Option<Kind>)
    requires Valid(ds)
    ensures var r := FillNa(ds, AllColumns, how, value, mean, mode, refill, fillKind);
      !(r.Raised? && r.error.UnknownColumn?)
  {
  }

  /** A worked case: a single Number column holding 1, a missing cell and 3,
      whose mean pandas computes as 2.0; `fillna()` puts 2.0 in the gap. */
  lemma MeanFillExample(ds: Dataset, mean: seq<Cell> -> Option<Cell>, mode: seq<Cell> -> Cell,
                        refill: (Column, Cell) -> Kind, fillKind: (Column, Cell) -> Option<Kind>)
    requires Valid(ds) && Width(ds) == 1 && ds.frame.rows == 3
    requires ds.frame.columns[0].cells == [Num(1.0), Missing, Num(3.0)]
    requires ds.roles == [Input] && ds.types == [Number]
    requires mean([Num(1.0), Missing, Num(3.0)]) == Some(Num(2.0))
    ensures var r := FillNa(ds, AllColumns, "mean", None, mean, mode, refill, fillKind);
      r.Filled? && r.ds.frame.columns[0].cells == [Num(1.0), Num(2.0), Num(3.0)]
  {
  }
}

=== FILE: names.dfy ===
/** Column-name handling: the case-insensitive "id"/"target" tests of
    `_id_identifier` / `_target_identifier` and the symbol stripping of
    `fix_names` (`''.join(name.split(symbol))` for each symbol in `' .-'`). */
module ColumnNames {

  /** ASCII lower-casing of one character. Python 2's `lower()` on a
      `unicode` name also maps some non-ASCII characters onto these letters
      (U+0130, capital I with dot above, lowers to 'i'); that case mapping
      is not modelled. */
  function LowerChar(c: char): char {
    if 'A' <= c <= 'Z' then (c as int + 32) as char else c
  }

  function Lower(s: string): string {
    seq(|s|, i requires 0 <= i < |s| => LowerChar(s[i]))
  }

  /** `_id_identifier`: the name lower-cases to "id". */
  predicate IsIdName(name: string) {
    Lower(name) == "id"
  }

  /** `_target_identifier`: the name lower-cases to "target". */
  predicate IsTargetName(name: string) {
    Lower(name) == "target"
  }

  /** Exactly the four spellings of "id" are identifier names. */
  lemma IdNameSpellings(name: string)
    ensures IsIdName(name) <==> name in ["id", "iD", "Id", "ID"]
  {
    if name in ["id", "iD", "Id", "ID"] {
      assert Lower(name) == "id";
    }
    if IsIdName(name) {
      assert |name| == 2;
      assert Lower(name)[0] == 'i' && Lower(name)[1] == 'd';
      LowerCharPreimage(name[0], 'i');
      LowerCharPreimage(name[1], 'd');
      assert name[0] == 'i' || name[0] == 'I';
      assert name[1] == 'd' || name[1] == 'D';
      assert name == [name[0], name[1]];
    }
  }

  /** The only characters lowering to a lower-case ASCII letter are that
      letter and its upper-case form. */
  lemma LowerCharPreimage(c: char, d: char)
    requires 'a' <= d <= 'z' && LowerChar(c) == d
    ensures c == d || c as int == d as int - 32
  {
  }

  /** No name is both an identifier name and a target name. */
  lemma IdAndTargetNamesDisjoint(name: string)
    ensures !(IsIdName(name) && IsTargetName(name))
  {
    if IsIdName(name) {
      assert |Lower(name)| == 2;
    }
  }

  // ---------------------------------------------------------------------------
  // fix_names

  /** The characters `fix_names` removes from every column name. */
  const Symbols: string := " .-"

  /** The same three characters, as a set. */
  const SymbolSet: set<char> := {' ', '.', '-'}

  /** Python's `s.split(sep)` for a one-character separator: the pieces
      between occurrences of `sep`, always at least one. */
  function Split(s: string, sep: char): (parts: seq<string>)
    ensures |parts| >= 1
    ensures forall k :: 0 <= k < |parts| ==> sep !in parts[k]
    decreases |s|
  {
    if |s| == 0 then [""]
    else
      var rest := Split(s[1..], sep);
      if s[0] == sep then [""] + rest
      else [[s[0]] + rest[0]] + rest[1..]
  }

  /** `''.join(parts)`. */
  function Concat(parts: seq<string>): string {
    if |parts| == 0 then "" else parts[0] + Concat(parts[1..])
  }

  /** `''.join(s.split(sep))`. */
  function Strip(s: string, sep: char): string {
    Concat(Split(s, sep))
  }

  /** The loop of `fix_names` over one name: strip each symbol in turn. */
  function StripEach(s: string, symbols: string): string
    decreases |symbols|
  {
    if |symbols| == 0 then s else StripEach(Strip(s, symbols[0]), symbols[1..])
  }

  /** The new name `fix_names` gives a column. */
  function FixName(name: string): string {
    StripEach(name, Symbols)
  }

  /** Reference definition: `s` with every character of `drop` deleted and
      the rest kept in order. */
  function Remove(s: string, drop: set<char>): (r: string)
    ensures |r| <= |s|
    ensures forall k :: 0 <= k < |r| ==> r[k] !in drop && r[k] in s
  {
    if |s| == 0 then ""
    else (if s[0] in drop then "" else [s[0]]) + Remove(s[1..], drop)
  }

  lemma {:induction false} ConcatAppend(x: string, parts: seq<string>)
    requires |parts| >= 1
    ensures Concat([x + parts[0]] + parts[1..]) == x + Concat(parts)
  {
    var q := [x + parts[0]] + parts[1..];
    assert q[1..] == parts[1..];
  }

  /** Splitting on a separator and joining with "" deletes the separator. */
  lemma {:induction false} StripIsRemove(s: string, sep: char)
    ensures Strip(s, sep) == Remove(s, {sep})
    decreases |s|
  {
    if |s| > 0 {
      var rest := Split(s[1..], sep);
      StripIsRemove(s[1..], sep);
      assert Strip(s[1..], sep) == Concat(rest);
      assert Remove(s, {sep}) == (if s[0] == sep then "" else [s[0]]) + Remove(s[1..], {sep});
      if s[0] == sep {
        assert Split(s, sep) == [""] + rest;
        assert ([""] + rest)[1..] == rest;
        assert Concat([""] + rest) == "" + Concat(rest);
        assert "" + Remove(s[1..], {sep}) == Remove(s[1..], {sep});
        assert Strip(s, sep) == Concat(rest);
      } else {
        assert Split(s, sep) == [[s[0]] + rest[0]] + rest[1..];
        ConcatAppend([s[0]], rest);
        assert Strip(s, sep) == [s[0]] + Concat(rest);
      }
    } else {
      assert Concat([""]) == "" + Concat([]);
    }
  }

  /** Deleting one set of characters, then another, deletes their union. */
  lemma {:induction false} RemoveTwice(s: string, a: set<char>, b: set<char>)
    ensures Remove(Remove(s, a), b) == Remove(s, a + b)
    decreases |s|
  {
    if |s| > 0 {
      RemoveTwice(s[1..], a, b);
      var t := Remove(s[1..], a);
      if s[0] !in a {
        assert Remove(s, a) == [s[0]] + t;
        assert Remove(s, a)[1..] == t;
        assert Remove(s, a + b) == (if s[0] in b then "" else [s[0]]) + Remove(s[1..], a + b);
      } else {
        assert Remove(s, a) == "" + t == t;
        assert Remove(s, a + b) == "" + Remove(s[1..], a + b);
      }
    }
  }

  /** Deleting characters that do not occur changes nothing. */
  lemma {:induction false} RemoveAbsent(s: string, drop: set<char>)
    requires forall k :: 0 <= k < |s| ==> s[k] !in drop
    ensures Remove(s, drop) == s
    decreases |s|
  {
    if |s| > 0 {
      RemoveAbsent(s[1..], drop);
      assert [s[0]] + s[1..] == s;
    }
  }

  /** Stripping the symbols one after the other deletes all of them. */
  lemma {:induction false} StripEachIsRemove(s: string, symbols: string)
    ensures StripEach(s, symbols) == Remove(s, set c | c in symbols)
    decreases |symbols|
  {
    if |symbols| == 0 {
      assert (set c | c in symbols) == {};
      RemoveAbsent(s, {});
    } else {
      var c := symbols[0];
      StripIsRemove(s, c);
      StripEachIsRemove(Remove(s, {c}), symbols[1..]);
      RemoveTwice(s, {c}, set d | d in symbols[1..]);
      assert {c} + (set d | d in symbols[1..]) == set d | d in symbols;
    }
  }

  /** `fix_names` on one name deletes every ' ', '.' and '-' and keeps
      everything else in order. */
  lemma FixNameRemovesSymbols(name: string)
    ensures FixName(name) == Remove(name, SymbolSet)
  {
    StripEachIsRemove(name, Symbols);
    assert (set c | c in Symbols) == SymbolSet;
  }

  /** A fixed name has none of the symbols, is no longer than before, and is
      the old name exactly when the old name had none of them. */
  lemma FixNameProperties(name: string)
    ensures forall k :: 0 <= k < |FixName(name)| ==> FixName(name)[k] !in Symbols
    ensures |FixName(name)| <= |name|
    ensures FixName(name) == name <==> forall k :: 0 <= k < |name| ==> name[k] !in Symbols
  {
    FixNameRemovesSymbols(name);
    assert forall c :: c in Symbols <==> c in SymbolSet;
    if forall k :: 0 <= k < |name| ==> name[k] !in Symbols {
      RemoveAbsent(name, SymbolSet);
    }
  }

  /** Fixing a fixed name changes nothing. */
  lemma FixNameIdempotent(name: string)
    ensures FixName(FixName(name)) == FixName(name)
  {
    FixNameProperties(name);
    FixNameProperties(FixName(name));
  }
}

=== FILE: renaming.dfy ===
/** `Dataset.fix_names`: strip ' ', '.' and '-' from every column name. The
    role and type series are re-indexed by the new names position by
    position. Two new names can coincide ("a b" and "ab" both become "ab");
    pandas then reads that label as a Series, and the tests on it raise,
    while this model keeps selecting by position.

    As written, `fix_names` starts from `self.columns.tolist()` and ends by
    storing the new names in `self.columns` as a plain list, which has no
    `tolist`: a second `fix_names`, and every `filter` after it, raises.
    `FixNames` models that; `FixNamesIntended` keeps the column index as it
    was, which is what the rest of the class relies on. */
module Renaming {
  import opened Wrappers
  import opened ColumnNames
  import opened Frames
  import opened Datasets
  import opened Views

  lemma FixNameEach(cols: seq<Column>)
    ensures forall i :: 0 <= i < |cols| ==> FixName(cols[i].name) == Remove(cols[i].name, SymbolSet)
  {
    forall i | 0 <= i < |cols|
      ensures FixName(cols[i].name) == Remove(cols[i].name, SymbolSet)
    {
      FixNameRemovesSymbols(cols[i].name);
    }
  }

  /** The renamed dataset: the same columns, cells, dtypes, roles and types
      in the same order, each name without its symbols. */
  predicate RenamedFrom(ds: Dataset, r: Dataset)
    requires Valid(ds)
  {
    && Valid(r) && Width(r) == Width(ds) && r.frame.rows == ds.frame.rows
    && r.roles == ds.roles && r.types == ds.types
    && (forall i :: 0 <= i < Width(ds) ==>
         r.frame.columns[i].cells == ds.frame.columns[i].cells && r.frame.columns[i].kind == ds.frame.columns[i].kind)
    && (forall i :: 0 <= i < Width(ds) ==>
         r.frame.columns[i].name == Remove(ds.frame.columns[i].name, SymbolSet))
  }

  function RenameColumns(ds: Dataset): (r: Dataset)
    requires Valid(ds)
    ensures RenamedFrom(ds, r) && r.columnsAsList == ds.columnsAsList
  {
    var cols := ds.frame.columns;
    FixNameEach(cols);
    var renamed := seq(|cols|, i requires 0 <= i < |cols| => Column(FixName(cols[i].name), cols[i].kind, cols[i].cells));
    ds.(frame := Frame(renamed, ds.frame.rows))
  }

  /** `fix_names` as written: it fails once `self.columns` is a list, and
      otherwise renames every column and leaves `self.columns` a list. */
  function FixNames(ds: Dataset): (r: Result<Dataset, DatasetError>)
    requires Valid(ds)
    ensures r.Err? <==> ds.columnsAsList
    ensures r.Err? ==> r.error == ListHasNoToList
    ensures r.Ok? ==> RenamedFrom(ds, r.value) && r.value.columnsAsList
  {
    if ds.columnsAsList then Err(ListHasNoToList)
    else Ok(RenameColumns(ds).(columnsAsList := true))
  }

  /** On any frame, the dataset `set_frame` builds can have its names fixed
      once but not twice. */
  lemma FixNamesTwiceFails(f: Frame)
    requires Rectangular(f)
    ensures FixNames(SetFrame(f)).Ok?
    ensures FixNames(FixNames(SetFrame(f)).value) == Err(ListHasNoToList)
  {
  }

  /** After `fix_names`, every view built on `filter` fails too. */
  lemma ViewsFailAfterFixNames(ds: Dataset)
    requires Valid(ds)
    ensures FixNames(ds).Ok? ==>
      var fixed := FixNames(ds).value;
      && (forall byRole, byType :: FilterNames(fixed, byRole, byType) == Err(ListHasNoToList))
      && Inputs(fixed).Err? && Numbers(fixed).Err? && Categories(fixed).Err?
      && TargetColumn(fixed) == Err(ListHasNoToList)
  {
  }

  /** `fix_names` as intended: the same renaming, with `self.columns` left
      the way it was held before. */
  function FixNamesIntended(ds: Dataset): (r: Dataset)
    requires Valid(ds)
    ensures RenamedFrom(ds, r) && r.columnsAsList == ds.columnsAsList
    ensures FixNames(ds).Ok? ==> FixNames(ds).value == r.(columnsAsList := true)
  {
    RenameColumns(ds)
  }

  /** After the intended renaming of a dataset built by `set_frame`, `filter`
      still works, over the new names (in the source, while they stay
      distinct). */
  lemma FilterAfterFixNamesIntended(ds: Dataset, byRole: Choice<Role>, byType: Choice<Type>)
    requires Valid(ds) && !ds.columnsAsList
    ensures FilterNames(FixNamesIntended(ds), byRole, byType).Ok?
    ensures Select(FixNamesIntended(ds), byRole, byType) == Select(ds, byRole, byType)
  {
    var fixed := FixNamesIntended(ds);
    assert Matches(fixed, RoleList(byRole), TypeList(byType)) == Matches(ds, RoleList(byRole), TypeList(byType));
  }

  /** No new name holds a space, a dot or a dash. */
  lemma FixNamesIntendedLeavesNoSymbol(ds: Dataset)
    requires Valid(ds)
    ensures forall i, k :: 0 <= i < Width(ds) && 0 <= k < |FixNamesIntended(ds).frame.columns[i].name| ==>
      FixNamesIntended(ds).frame.columns[i].name[k] !in Symbols
  {
    var r := FixNamesIntended(ds);
    forall i | 0 <= i < Width(ds)
      ensures forall k :: 0 <= k < |r.frame.columns[i].name| ==> r.frame.columns[i].name[k] !in Symbols
    {
      FixNameProperties(ds.frame.columns[i].name);
    }
  }

  /** Fixing the names twice, as intended, is fixing them once. */
  lemma FixNamesIntendedIdempotent(ds: Dataset)
    requires Valid(ds)
    ensures FixNamesIntended(FixNamesIntended(ds)) == FixNamesIntended(ds)
  {
    var once := FixNamesIntended(ds);
    var twice := FixNamesIntended(once);
    forall i | 0 <= i < Width(ds)
      ensures twice.frame.columns[i] == once.frame.columns[i]
    {
      FixNameRemovesSymbols(ds.frame.columns[i].name);
      FixNameIdempotent(ds.frame.columns[i].name);
      FixNameRemovesSymbols(once.frame.columns[i].name);
    }
    assert twice.frame.columns == once.frame.columns;
  }
}

=== FILE: seqs.dfy ===
/** Index selections over sequences: the list comprehensions
    `[i for i, x in enumerate(xs) if p(x)]` and the label assignment
    `series[idx] = v` that the classification and filtering code is built from. */
module Seqs {
  import opened Wrappers

  /** Strictly increasing: no index twice, and original order kept. */
  predicate Increasing(s: seq<nat>) {
    forall a, b :: 0 <= a < b < |s| ==> s[a] < s[b]
  }

  /** The indices `0 .. n-1` in order. */
  function Range(n: nat): (r: seq<nat>)
    ensures |r| == n
    ensures forall k :: 0 <= k < n ==> r[k] == k
  {
    if n == 0 then [] else Range(n - 1) + [n - 1]
  }

  /** The positions where `mask` holds, in order: the index list a
      comprehension `[c for c in columns if test(c)]` selects. */
  function Where(mask: seq<bool>): (r: seq<nat>)
    ensures forall k :: 0 <= k < |r| ==> r[k] < |mask| && mask[r[k]]
    ensures forall i :: 0 <= i < |mask| && mask[i] ==> i in r
    ensures Increasing(r)
    decreases |mask|
  {
    if |mask| == 0 then []
    else
      var n := |mask| - 1;
      Where(mask[..n]) + (if mask[n] then [n] else [])
  }

  /** `i` is the first position where `mask` holds. */
  predicate FirstOf(mask: seq<bool>, i: nat)
    requires i < |mask|
  {
    mask[i] && forall j :: 0 <= j < i ==> !mask[j]
  }

  /** The head of a selection is its first qualifying position. */
  lemma WhereHead(mask: seq<bool>, i: nat)
    requires i < |mask|
    ensures |Where(mask)| > 0 && Where(mask)[0] == i <==> FirstOf(mask, i)
  {
    var w := Where(mask);
    if FirstOf(mask, i) {
      assert i in w;
    }
  }

  /** The tail of a selection holds every qualifying position but the first. */
  lemma WhereTail(mask: seq<bool>, i: nat)
    requires i < |mask|
    ensures |Where(mask)| > 0 && i in Where(mask)[1..] <==> mask[i] && !FirstOf(mask, i)
  {
    var w := Where(mask);
    if |w| > 0 && i in w[1..] {
      var k :| 1 <= k < |w| && w[k] == i;
      assert w[0] < i && mask[w[0]];
    }
    if mask[i] && !FirstOf(mask, i) {
      var j :| 0 <= j < i && mask[j];
      assert j in w && i in w;
      var kj :| 0 <= kj < |w| && w[kj] == j;
      var k :| 0 <= k < |w| && w[k] == i;
      assert w[kj] < w[k];
      assert kj < k;
      assert w[1..][k - 1] == i;
    }
  }

  /** When every position qualifies, the selection is every index in order. */
  lemma {:induction false} WhereEverything(mask: seq<bool>)
    requires forall i :: 0 <= i < |mask| ==> mask[i]
    ensures Where(mask) == Range(|mask|)
  {
    if |mask| > 0 {
      WhereEverything(mask[..|mask| - 1]);
    }
  }

  /** Selections by two masks that never both hold add up to the selection by
      their disjunction. */
  lemma {:induction false} WhereDisjointUnion(a: seq<bool>, b: seq<bool>, c: seq<bool>)
    requires |a| == |b| == |c|
    requires forall i :: 0 <= i < |c| ==> c[i] == (a[i] || b[i])
    requires forall i :: 0 <= i < |c| ==> !(a[i] && b[i])
    ensures |Where(a)| + |Where(b)| == |Where(c)|
  {
    if |c| > 0 {
      var n := |c| - 1;
      WhereDisjointUnion(a[..n], b[..n], c[..n]);
    }
  }

  /** The elements of `xs` at the positions `at`, in the order of `at`. */
  function Pick<T>(xs: seq<T>, at: seq<nat>): (r: seq<T>)
    requires forall k :: 0 <= k < |at| ==> at[k] < |xs|
    ensures |r| == |at|
  {
    seq(|at|, k requires 0 <= k < |at| => xs[at[k]])
  }

  /** Reference definition: walk `xs` front to back keeping the elements
      whose flag is set. */
  function Keep<T>(xs: seq<T>, mask: seq<bool>): seq<T>
    requires |mask| == |xs|
  {
    if |xs| == 0 then []
    else (if mask[0] then [xs[0]] else []) + Keep(xs[1..], mask[1..])
  }

  lemma {:induction false} KeepSnoc<T>(xs: seq<T>, mask: seq<bool>)
    requires |mask| == |xs| > 0
    ensures var n := |xs| - 1;
      Keep(xs, mask) == Keep(xs[..n], mask[..n]) + (if mask[n] then [xs[n]] else [])
  {
    var n := |xs| - 1;
    if n > 0 {
      KeepSnoc(xs[1..], mask[1..]);
      assert xs[1..][..n - 1] == xs[..n][1..];
      assert mask[1..][..n - 1] == mask[..n][1..];
    } else {
      assert Keep(xs[1..], mask[1..]) == [];
    }
  }

  /** Picking the positions `Where(mask)` selects is keeping the flagged
      elements: the index selection is order-preserving and exact. */
  lemma {:induction false} PickWhere<T>(xs: seq<T>, mask: seq<bool>)
    requires |mask| == |xs|
    ensures Pick(xs, Where(mask)) == Keep(xs, mask)
  {
    if |xs| > 0 {
      var n := |xs| - 1;
      var w := Where(mask[..n]);
      PickWhere(xs[..n], mask[..n]);
      KeepSnoc(xs, mask);
      assert Pick(xs, w) == Pick(xs[..n], w);
      var last: seq<nat> := if mask[n] then [n] else [];
      assert Where(mask) == w + last;
      assert Pick(xs, w + last) == Pick(xs, w) + Pick(xs, last);
    }
  }

  /** A series of `n` unset entries (pandas `Series(index=..., dtype=str)`). */
  function Blank<T>(n: nat): (r: seq<Option<T>>)
    ensures |r| == n
  {
    seq(n, _ => None)
  }

  /** Overwrite the entries at the positions `at` with `Some(v)`, leaving the
      others as they were: pandas `series[labels] = v` on a positional index. */
  function Assign<T>(xs: seq<Option<T>>, at: seq<nat>, v: T): (r: seq<Option<T>>)
    ensures |r| == |xs|
  {
    seq(|xs|, i requires 0 <= i < |xs| => if i in at then Some(v) else xs[i])
  }

  /** Replace every `None` by `default`: pandas `series.fillna(value=default)`. */
  function FillNone<T>(xs: seq<Option<T>>, default: T): (r: seq<T>)
    ensures |r| == |xs|
  {
    seq(|xs|, i requires 0 <= i < |xs| => xs[i].GetOr(default))
  }
}

=== FILE: views.dfy ===
/** Column selection by role and type (`Dataset.filter`) and the views built
    on it: `inputs`, `target`, `numbers`, `categories`, `metadata`; and
    `update`, which converts number-typed text columns in place. */
module Views {
  import opened Wrappers
  import opened Seqs
  import opened Frames
  import opened Datasets

  /** A `role` or `type` argument of `filter`: `None` (every constant), a
      single constant, or a list of constants. */
  datatype Choice<T> = Every | One(T) | AnyOf(seq<T>)

  /** The list `filter` tests a role against. */
  function RoleList(c: Choice<Role>): seq<Role> {
    match c
    case Every => [ID, Input, Target, Reject]
    case One(r) => [r]
    case AnyOf(rs) => rs
  }

  /** The list `filter` tests a type against. */
  function TypeList(c: Choice<Type>): seq<Type> {
    match c
    case Every => [Number, Category]
    case One(t) => [t]
    case AnyOf(ts) => ts
  }

  /** `None` admits every role and every type. */
  lemma EveryAdmitsAll()
    ensures forall r: Role :: r in RoleList(Every)
    ensures forall t: Type :: t in TypeList(Every)
  {
    forall r: Role ensures r in RoleList(Every) {
      match r
      case ID => case Input => case Target => case Reject =>
    }
    forall t: Type ensures t in TypeList(Every) {
      match t
      case Number => case Category =>
    }
  }

  /** Per column: `role[col] in roles and type[col] in types`. */
  function Matches(ds: Dataset, roles: seq<Role>, types: seq<Type>): (mask: seq<bool>)
    requires Valid(ds)
    ensures |mask| == Width(ds)
  {
    seq(Width(ds), i requires 0 <= i < Width(ds) => ds.roles[i] in roles && ds.types[i] in types)
  }

  /** Per column: the role is `r`. */
  function HasRole(ds: Dataset, r: Role): (mask: seq<bool>)
    requires Valid(ds)
    ensures |mask| == Width(ds)
  {
    RoleMask(ds.roles, r)
  }

  /** Per column: the type is `t`. */
  function HasType(ds: Dataset, t: Type): (mask: seq<bool>)
    requires Valid(ds)
    ensures |mask| == Width(ds)
  {
    seq(Width(ds), i requires 0 <= i < Width(ds) => ds.types[i] == t)
  }

  /** The positions of the columns `filter(role, type)` keeps: exactly those
      whose role and type are admitted, in column order, each once. This is
      the comprehension's result once `self.columns.tolist()` has succeeded. */
  function Select(ds: Dataset, byRole: Choice<Role>, byType: Choice<Type>): (at: seq<nat>)
    requires Valid(ds)
    ensures forall k :: 0 <= k < |at| ==>
      at[k] < Width(ds) && ds.roles[at[k]] in RoleList(byRole) && ds.types[at[k]] in TypeList(byType)
    ensures forall i :: 0 <= i < Width(ds) && ds.roles[i] in RoleList(byRole) && ds.types[i] in TypeList(byType) ==>
      i in at
    ensures Increasing(at)
  {
    Where(Matches(ds, RoleList(byRole), TypeList(byType)))
  }

  /** The first selected position is the first matching column. */
  lemma SelectHead(ds: Dataset, byRole: Choice<Role>, byType: Choice<Type>)
    requires Valid(ds) && |Select(ds, byRole, byType)| > 0
    ensures forall j :: 0 <= j < Select(ds, byRole, byType)[0] ==>
      !(ds.roles[j] in RoleList(byRole) && ds.types[j] in TypeList(byType))
  {
    var mask := Matches(ds, RoleList(byRole), TypeList(byType));
    WhereHead(mask, Where(mask)[0]);
  }

  /** `filter(role, type, ret_cols=True)`: the names of the kept columns.
      Like every mode of `filter`, it fails while `self.columns` is a list. */
  function FilterNames(ds: Dataset, byRole: Choice<Role>, byType: Choice<Type>): (r: Result<seq<string>, DatasetError>)
    requires Valid(ds)
    ensures r.Err? <==> ds.columnsAsList
    ensures r.Err? ==> r.error == ListHasNoToList
    ensures r.Ok? ==> r.value == Keep(Names(ds.frame), Matches(ds, RoleList(byRole), TypeList(byType)))
  {
    if ds.columnsAsList then Err(ListHasNoToList)
    else
      var mask := Matches(ds, RoleList(byRole), TypeList(byType));
      PickWhere(Names(ds.frame), mask);
      Ok(Pick(Names(ds.frame), Where(mask)))
  }

  /** `filter(role, type)`: the frame restricted to the kept columns, in
      column order, over the same rows. */
  function FilterFrame(ds: Dataset, byRole: Choice<Role>, byType: Choice<Type>): (r: Result<Frame, DatasetError>)
    requires Valid(ds)
    ensures r.Err? <==> ds.columnsAsList
    ensures r.Err? ==> r.error == ListHasNoToList
    ensures r.Ok? ==> Rectangular(r.value) && r.value.rows == ds.frame.rows
    ensures r.Ok? ==> r.value.columns == Keep(ds.frame.columns, Matches(ds, RoleList(byRole), TypeList(byType)))
  {
    if ds.columnsAsList then Err(ListHasNoToList)
    else
      var mask := Matches(ds, RoleList(byRole), TypeList(byType));
      PickWhere(ds.frame.columns, mask);
      Ok(Project(ds.frame, Select(ds, byRole, byType)))
  }

  /** `filter(role, type, ret_ds=True)`: a new Dataset over the kept columns.
      Building it classifies the sub-frame afresh, which also stores its
      columns as an array; the loop that follows then overwrites every role
      and type with the source's entry. */
  function FilterDataset(ds: Dataset, byRole: Choice<Role>, byType: Choice<Type>): (r: Result<Dataset, DatasetError>)
    requires Valid(ds)
    ensures r.Err? <==> ds.columnsAsList
    ensures r.Err? ==> r.error == ListHasNoToList
    ensures r.Ok? ==> Valid(r.value) && !r.value.columnsAsList && r.value.frame.rows == ds.frame.rows
    ensures r.Ok? ==> r.value.frame.columns == Keep(ds.frame.columns, Matches(ds, RoleList(byRole), TypeList(byType)))
    ensures r.Ok? ==> r.value.roles == Keep(ds.roles, Matches(ds, RoleList(byRole), TypeList(byType)))
    ensures r.Ok? ==> r.value.types == Keep(ds.types, Matches(ds, RoleList(byRole), TypeList(byType)))
  {
    if ds.columnsAsList then Err(ListHasNoToList)
    else
      var mask := Matches(ds, RoleList(byRole), TypeList(byType));
      var at := Select(ds, byRole, byType);
      var classified := SetFrame(Project(ds.frame, at));
      PickWhere(ds.frame.columns, mask);
      PickWhere(ds.roles, mask);
      PickWhere(ds.types, mask);
      Ok(classified.(roles := Pick(ds.roles, at), types := Pick(ds.types, at)))
  }

  /** Filtering the sub-dataset again by the same arguments succeeds and
      keeps all of it. */
  lemma RefilterKeepsAll(ds: Dataset, byRole: Choice<Role>, byType: Choice<Type>)
    requires Valid(ds)
    ensures FilterDataset(ds, byRole, byType).Ok? ==>
      var sub := FilterDataset(ds, byRole, byType).value;
      FilterNames(sub, byRole, byType).Ok? && Select(sub, byRole, byType) == Range(Width(sub))
  {
    if !ds.columnsAsList {
      var sub := FilterDataset(ds, byRole, byType).value;
      var at := Select(ds, byRole, byType);
      var mask := Matches(ds, RoleList(byRole), TypeList(byType));
      PickWhere(ds.roles, mask);
      PickWhere(ds.types, mask);
      assert sub.roles == Pick(ds.roles, at) && sub.types == Pick(ds.types, at);
      var again := Matches(sub, RoleList(byRole), TypeList(byType));
      forall k | 0 <= k < |again| ensures again[k] {
        assert sub.roles[k] == ds.roles[at[k]] && sub.types[k] == ds.types[at[k]];
      }
      WhereEverything(again);
    }
  }

  /** `filter()` with no arguments keeps every column, in order. */
  lemma FilterEverything(ds: Dataset)
    requires Valid(ds)
    ensures Select(ds, Every, Every) == Range(Width(ds))
    ensures !ds.columnsAsList ==> FilterNames(ds, Every, Every) == Ok(Names(ds.frame))
    ensures !ds.columnsAsList ==> FilterFrame(ds, Every, Every) == Ok(ds.frame)
  {
    var mask := Matches(ds, RoleList(Every), TypeList(Every));
    EveryAdmitsAll();
    WhereEverything(mask);
    if !ds.columnsAsList {
      assert FilterNames(ds, Every, Every).value == Names(ds.frame);
      assert FilterFrame(ds, Every, Every).value.columns == ds.frame.columns;
    }
  }

  /** Selecting one role under every type is selecting by that role. */
  lemma OneRoleMask(ds: Dataset, r: Role)
    requires Valid(ds)
    ensures Matches(ds, RoleList(One(r)), TypeList(Every)) == HasRole(ds, r)
  {
    EveryAdmitsAll();
  }

  /** Selecting one type under every role is selecting by that type. */
  lemma OneTypeMask(ds: Dataset, t: Type)
    requires Valid(ds)
    ensures Matches(ds, RoleList(Every), TypeList(One(t))) == HasType(ds, t)
  {
    EveryAdmitsAll();
  }

  function RoleMask(rs: seq<Role>, r: Role): (mask: seq<bool>)
    ensures |mask| == |rs|
  {
    seq(|rs|, i requires 0 <= i < |rs| => rs[i] == r)
  }

  lemma RoleCounts(rs: seq<Role>)
    ensures |Where(RoleMask(rs, ID))| + |Where(RoleMask(rs, Input))|
          + |Where(RoleMask(rs, Target))| + |Where(RoleMask(rs, Reject))| == |rs|
  {
    var n := |rs|;
    var m2 := seq(n, i requires 0 <= i < n => rs[i] == ID || rs[i] == Input);
    var m3 := seq(n, i requires 0 <= i < n => rs[i] != Reject);
    var m4 := seq(n, i requires 0 <= i < n => true);
    var id, input, target, reject := RoleMask(rs, ID), RoleMask(rs, Input), RoleMask(rs, Target), RoleMask(rs, Reject);
    forall i | 0 <= i < n
      ensures m2[i] == (id[i] || input[i]) && !(id[i] && input[i])
      ensures m3[i] == (m2[i] || target[i]) && !(m2[i] && target[i])
      ensures m4[i] == (m3[i] || reject[i]) && !(m3[i] && reject[i])
    {
      match rs[i]
      case ID => case Input => case Target => case Reject =>
    }
    WhereDisjointUnion(id, input, m2);
    WhereDisjointUnion(m2, target, m3);
    WhereDisjointUnion(m3, RoleMask(rs, Reject), m4);
    WhereEverything(m4);
  }

  /** The four single-role selections partition the columns: each column is
      in the selection of its own role only, and their sizes add up to the
      number of columns. */
  lemma RoleViewsPartition(ds: Dataset)
    requires Valid(ds)
    ensures forall r: Role, i :: 0 <= i < Width(ds) ==>
      (i in Select(ds, One(r), Every) <==> ds.roles[i] == r)
    ensures |Select(ds, One(ID), Every)| + |Select(ds, One(Input), Every)|
          + |Select(ds, One(Target), Every)| + |Select(ds, One(Reject), Every)| == Width(ds)
  {
    EveryAdmitsAll();
    OneRoleMask(ds, ID);
    OneRoleMask(ds, Input);
    OneRoleMask(ds, Target);
    OneRoleMask(ds, Reject);
    RoleCounts(ds.roles);
  }

  lemma TypeCounts(ds: Dataset)
    requires Valid(ds)
    ensures |Where(HasType(ds, Number))| + |Where(HasType(ds, Category))| == Width(ds)
  {
    var n := Width(ds);
    var number, category := HasType(ds, Number), HasType(ds, Category);
    var m := seq(n, i requires 0 <= i < n => true);
    forall i | 0 <= i < n
      ensures m[i] == (number[i] || category[i]) && !(number[i] && category[i])
    {
      match ds.types[i]
      case Number => case Category =>
    }
    WhereDisjointUnion(number, category, m);
    WhereEverything(m);
  }

  /** `numbers` and `categories` partition the columns the same way. */
  lemma TypeViewsPartition(ds: Dataset)
    requires Valid(ds)
    ensures forall t: Type, i :: 0 <= i < Width(ds) ==>
      (i in Select(ds, Every, One(t)) <==> ds.types[i] == t)
    ensures |Select(ds, Every, One(Number))| + |Select(ds, Every, One(Category))| == Width(ds)
  {
    EveryAdmitsAll();
    OneTypeMask(ds, Number);
    OneTypeMask(ds, Category);
    TypeCounts(ds);
  }

  /** `inputs`: the columns whose role is Input, in column order. */
  function Inputs(ds: Dataset): (r: Result<Frame, DatasetError>)
    requires Valid(ds)
    ensures r.Err? <==> ds.columnsAsList
    ensures r.Ok? ==> Rectangular(r.value) && r.value.rows == ds.frame.rows
    ensures r.Ok? ==> r.value.columns == Keep(ds.frame.columns, HasRole(ds, Input))
  {
    OneRoleMask(ds, Input);
    FilterFrame(ds, One(Input), Every)
  }

  /** `numbers`: the columns whose type is Number, in column order. */
  function Numbers(ds: Dataset): (r: Result<Frame, DatasetError>)
    requires Valid(ds)
    ensures r.Err? <==> ds.columnsAsList
    ensures r.Ok? ==> Rectangular(r.value) && r.value.rows == ds.frame.rows
    ensures r.Ok? ==> r.value.columns == Keep(ds.frame.columns, HasType(ds, Number))
  {
    OneTypeMask(ds, Number);
    FilterFrame(ds, Every, One(Number))
  }

  /** `categories`: the columns whose type is Category, in column order. */
  function Categories(ds: Dataset): (r: Result<Frame, DatasetError>)
    requires Valid(ds)
    ensures r.Err? <==> ds.columnsAsList
    ensures r.Ok? ==> Rectangular(r.value) && r.value.rows == ds.frame.rows
    ensures r.Ok? ==> r.value.columns == Keep(ds.frame.columns, HasType(ds, Category))
  {
    OneTypeMask(ds, Category);
    FilterFrame(ds, Every, One(Category))
  }

  /** `target`: the first column of `filter(role='Target')`. The filter fails
      while `self.columns` is a list; otherwise accessing the first column of
      an empty selection fails. */
  function TargetColumn(ds: Dataset): (r: Result<Column, DatasetError>)
    requires Valid(ds)
    ensures r == Err(ListHasNoToList) <==> ds.columnsAsList
    ensures r == Err(NoTargetColumn) <==>
      !ds.columnsAsList && forall i :: 0 <= i < Width(ds) ==> ds.roles[i] != Target
    ensures r.Ok? ==> exists i :: 0 <= i < Width(ds) && ds.roles[i] == Target &&
                        (forall j :: 0 <= j < i ==> ds.roles[j] != Target) &&
                        r.value == ds.frame.columns[i]
  {
    if ds.columnsAsList then Err(ListHasNoToList)
    else
      var at := Select(ds, One(Target), Every);
      var f := Project(ds.frame, at);
      EveryAdmitsAll();
      if |f.columns| == 0 then
        Err(NoTargetColumn)
      else
        SelectHead(ds, One(Target), Every);
        Ok(f.columns[0])
  }

  /** One row of `metadata`: a column's name, role, type and dtype. */
  datatype MetaRow = MetaRow(name: string, role: Role, ty: Type, dtype: Kind)

  /** `metadata`: one row per column, in column order, indexed by the column
      name and aligned with the role series, the type series and the frame's
      dtypes. It does not go through `filter`, so it works however
      `self.columns` is held. */
  function Metadata(ds: Dataset): (rows: seq<MetaRow>)
    requires Valid(ds)
    ensures |rows| == Width(ds)
    ensures forall i :: 0 <= i < Width(ds) ==>
      && rows[i].name == Names(ds.frame)[i]
      && rows[i].role == ds.roles[i] && rows[i].ty == ds.types[i]
      && rows[i].dtype == ds.frame.columns[i].kind
  {
    seq(Width(ds), i requires 0 <= i < Width(ds) =>
      MetaRow(ds.frame.columns[i].name, ds.roles[i], ds.types[i], ds.frame.columns[i].kind))
  }

  /** The metadata table and `filter` agree: a column is selected by one role
      and one type exactly when its metadata row shows that role and type. */
  lemma MetadataAgreesWithFilter(ds: Dataset, r: Role, t: Type)
    requires Valid(ds)
    ensures forall i :: 0 <= i < Width(ds) ==>
      (i in Select(ds, One(r), One(t)) <==> Metadata(ds)[i].role == r && Metadata(ds)[i].ty == t)
  {
  }

  /** `update`: every column typed Number but stored as objects is converted
      cell by cell; pandas then infers the column's new dtype. Both the
      conversion and the inference are parameters. */
  function Update(ds: Dataset, toNumber: Cell -> Cell, inferKind: seq<Cell> -> Kind): (r: Dataset)
    requires Valid(ds)
    ensures Valid(r) && r.roles == ds.roles && r.types == ds.types && r.columnsAsList == ds.columnsAsList
    ensures r.frame.rows == ds.frame.rows && Names(r.frame) == Names(ds.frame)
    ensures forall i :: 0 <= i < Width(ds) && !(ds.types[i] == Number && ds.frame.columns[i].kind == Object) ==>
      r.frame.columns[i] == ds.frame.columns[i]
    ensures forall i, j ::
      (0 <= i < Width(ds) && 0 <= j < ds.frame.rows && ds.types[i] == Number && ds.frame.columns[i].kind == Object) ==>
      r.frame.columns[i].cells[j] == toNumber(ds.frame.columns[i].cells[j])
  {
    var cols := ds.frame.columns;
    var converted := seq(|cols|, i requires 0 <= i < |cols| =>
      if ds.types[i] == Number && cols[i].kind == Object then
        var cells := seq(|cols[i].cells|, j requires 0 <= j < |cols[i].cells| => toNumber(cols[i].cells[j]));
        Column(cols[i].name, inferKind(cells), cells)
      else cols[i]);
    ds.(frame := Frame(converted, ds.frame.rows))
  }

  /** `update` leaves every selection as it was. */
  lemma UpdateKeepsSelections(ds: Dataset, toNumber: Cell -> Cell, inferKind: seq<Cell> -> Kind,
                              byRole: Choice<Role>, byType: Choice<Type>)
    requires Valid(ds)
    ensures Select(Update(ds, toNumber, inferKind), byRole, byType) == Select(ds, byRole, byType)
    ensures FilterNames(Update(ds, toNumber, inferKind), byRole, byType) == FilterNames(ds, byRole, byType)
  {
    var u := Update(ds, toNumber, inferKind);
    assert Matches(u, RoleList(byRole), TypeList(byType)) == Matches(ds, RoleList(byRole), TypeList(byType));
  }
}

=== FILE: wrappers.dfy ===
/** Failure-compatible wrappers used across the model: `Option` for the
    source's `None`/NaN placeholders and `Result` for operations that raise. */
module Wrappers {

  datatype Option<+T> = None | Some(value: T) {

    /** The wrapped value, or `default` when there is none (pandas `fillna`
        on a single entry). */
    function GetOr(default: T): T {
      match this
      case Some(v) => v
      case None => default
    }
  }

  datatype Result<+T, +E> = Ok(value: T) | Err(error: E)
}
